=== FILE: README.md ===
# Grid Sentinel telemetry and status engine, in Dafny

Grid Sentinel watches a distribution transformer and the smart meters behind
it. It raises alarms for overheating, thermal shock, tampering and power
theft, and shows the grid's health on a React dashboard. This project models
the part of it that decides things:

- **The shared dashboard store** (`GridStore`, `SmsStore`). It holds the
  latest temperature, load and vibration, an asset status
  (NORMAL, WARNING, CRITICAL, HEALING), a failure countdown, and a history
  that keeps the newest 20 samples.
- **Every writer into that store**, each a pure step function:
  - the synthetic one-second generator (`Simulation`);
  - the two live pollers, for the nested `/api/live` schema (`LivePoll`) and
    the flat `/api/status/live` schema (`FlatPoll`);
  - the keyboard overrides (`GodMode`) and the kill switch (`CriticalAlert`);
  - the HEALING-to-NORMAL auto-revert (`HealingTimer`);
  - the theft-location popup (`TheftPopup`) and the operator chat
    (`GridChat`);
  - the 5-second chaos timers of the two dashboard shells (`Dashboard`).
- **The backend's decisions**:
  - the digital twin and its theft estimate (`GridState`);
  - the MQTT message handler's alert thresholds and device routing
    (`MqttIngest`);
  - the thermal-shock detector and demo-mode aging scaling (`Physics`);
  - the failure predictor's 60-point window and result guards (`Prediction`);
  - the technician-SMS limiter (`SmsAlerts`);
  - the hash-chain audit, the admin reset and the live status route (`Audit`);
  - the assistant's context (`GridLlm`).
- **Dashboard odds and ends**: the footer's uptime and ping simulator
  (`Footer`), and the weather and CO2 panels (`Dashboard`).

Everything the original reads from outside is a parameter: random draws, the
clock, HTTP and MQTT outcomes, the regression fit, the `np.exp` aging factor,
the audio score, SHA-256 and the language model's reply. Timers are explicit
due times in milliseconds with a "fire" step per timer. A React effect re-runs
only when its dependency, the status, actually changes. Floating-point values
are exact reals. Python's `round` and JavaScript's `toFixed` are both modelled
as round-half-up at the given number of decimals (`Numeric.Round`).

Shared helpers:

- `Wrappers`: `Option`.
- `Numeric`: rounding and its bounds.
- `Text`: ASCII lower-casing, substring search, the ECMAScript whitespace set
  for `trim`, and decimal rendering with its read-back.
- `Window`: the keep-the-newest-N buffer used by both the store history and
  the predictor.

Two facts the model makes explicit:

- No writer ever produces WARNING.
- A countdown may outlive CRITICAL. The live poller returns to NORMAL without
  clearing it, and `setStatus` never touches it. So the model never claims
  that "countdown set" implies CRITICAL.

## Model

| member | source | states |
|---|---|---|
| GridStore.Initial | src/store/useGridStore.ts:18-24 | the initial store satisfies the 20-entry history bound (its values are 45, 12.5, 50, NORMAL, no countdown, empty history) |
| GridStore.SetMetrics | src/store/useGridStore.ts:26-39 | the three metrics become the arguments; status and countdown are kept; the history grows by one up to 20, its last point is the new sample, and the older points keep their order (dropping the oldest once full) |
| GridStore.SetStatus | src/store/useGridStore.ts:41 | only the status changes; the countdown, metrics and history are as before |
| GridStore.SetCountdown | src/store/useGridStore.ts:42 | only the countdown changes |
| GridStore.ApplyHistory | src/store/useGridStore.ts:26-42 | any single write leaves the history equal to the newest 20 of the old history plus the point it appends (none for status and countdown writes) |
| GridStore.RunHistory | src/store/useGridStore.ts:32 | after any mix of writes the history stays within 20 and equals the newest 20 of the old history followed by every appended point, in arrival order |
| GridStore.HistoryFromInitial | src/store/useGridStore.ts:18-32 | from the initial store the history is exactly the last min(n, 20) appended points |
| GridStore.MetricsOnlyKeepStatus | src/store/useGridStore.ts:33-38 | a run of metric writes never changes the status or the countdown |
| SmsStore.Initial | frontend/src/store/useGridStore.ts:25-35 | the second store starts like the first, with no SMS report and SMS enabled |
| SmsStore.SetMetrics | frontend/src/store/useGridStore.ts:38-57 | sets the three metrics, appends exactly one point (the newest), stays within 20, and leaves status, countdown and the SMS fields alone |
| SmsStore.SetStatus | frontend/src/store/useGridStore.ts:59 | changes only the status |
| SmsStore.SetCountdown | frontend/src/store/useGridStore.ts:60 | changes only the countdown |
| SmsStore.SetSmsStatus | frontend/src/store/useGridStore.ts:63 | changes only the SMS report |
| SmsStore.SetSmsEnabled | frontend/src/store/useGridStore.ts:64 | changes only the SMS switch |
| Simulation.UniformInt | src/hooks/useGridSimulation.ts:18 | the floor of a scaled draw lies in [lo, hi-1] |
| Simulation.UniformRounded | src/hooks/useGridSimulation.ts:19-20 | a scaled draw rounded to fixed decimals stays within [lo, hi] |
| Simulation.Tick | src/hooks/useGridSimulation.ts:16-45 | one sample is recorded per tick. Outside alarms: integer temperature 40-49, load 10-15, vibration 49-51. CRITICAL: temperature 80-89, vibration 100-150, countdown down by one while positive. HEALING: exactly 45 / 5 / 50. A chaos draw above 0.99 outside alarms gives CRITICAL with countdown 9; no other status change |
| Simulation.TicksKeepAlarmStatus | src/hooks/useGridSimulation.ts:23-43 | any number of ticks never moves the status out of CRITICAL or HEALING |
| Simulation.CriticalCountdown | src/hooks/useGridSimulation.ts:28-30 | n ticks in CRITICAL take a countdown c to max(c - n, 0) and stay CRITICAL |
| LivePoll.Poll | Grid_Sentinel-frontend/src/hooks/useRealGridData.ts:14-66 | a failure only sets offline; a missing transformer is a no-op. A reading stores temperature, current and vibration times 100 (missing vibration is 0), clears offline, and sets CRITICAL with countdown 10 iff the newest alert is under 10000 ms old, else NORMAL with the countdown kept |
| LivePoll.FailureThenSuccess | Grid_Sentinel-frontend/src/hooks/useRealGridData.ts:60-64 | a failed poll keeps the previous sample and sets offline; the next good poll clears it |
| LivePoll.BoundaryIsStale | Grid_Sentinel-frontend/src/hooks/useRealGridData.ts:44-46 | an alert exactly 10000 ms old is stale, and one a millisecond younger is fresh |
| LivePoll.NormalKeepsCountdown | Grid_Sentinel-frontend/src/hooks/useRealGridData.ts:48-55 | a fresh alert gives CRITICAL with countdown 10; the same alert once stale gives NORMAL but leaves the countdown at 10 |
| FlatPoll.Poll | src/hooks/useRealGridData.ts:15-44 | success stores the three flat fields and clears offline; "CRITICAL" sets CRITICAL and the countdown only when the prediction is truthy; "NORMAL" sets NORMAL; any other status string changes nothing; failure only sets offline |
| GodMode.Classify | Grid_Sentinel-frontend/src/hooks/useGodMode.ts:12-33 | the override is selected by the lower-cased key, n, c and h each exactly |
| GodMode.HandleKeyDown | Grid_Sentinel-frontend/src/hooks/useGodMode.ts:8-37 | an input target is ignored; N gives NORMAL, no countdown, 45 / 12.5 / 50; C gives CRITICAL, countdown 10, 89 / 16.2 / 105; H gives HEALING with no countdown and untouched metrics; T and all other keys change nothing |
| GodMode.CaseInsensitive | Grid_Sentinel-frontend/src/hooks/useGodMode.ts:12 | the upper- and lower-case forms of N, C, H and T select the same override |
| GodMode.KeyCaseIgnored | Grid_Sentinel-frontend/src/hooks/useGodMode.ts:12 | every key selects the same override as its lower-cased form |
| GodMode.NoKeyGivesWarning | Grid_Sentinel-frontend/src/hooks/useGodMode.ts:12-37 | no key press produces WARNING from a status that is not WARNING |
| HealingTimer.Effect | Grid_Sentinel-frontend/src/components/overlays/HealingOverlay.tsx:10-17 | the timer is rescheduled only on a status change: a change into HEALING arms it for now + 3000, any other change cancels it |
| HealingTimer.WriteStatus | Grid_Sentinel-frontend/src/components/overlays/HealingOverlay.tsx:10-17 | a status write keeps "a timer is pending only while HEALING" |
| HealingTimer.Elapse | Grid_Sentinel-frontend/src/components/overlays/HealingOverlay.tsx:12-14 | a due timer sets NORMAL and changes nothing else; before it is due nothing happens |
| HealingTimer.Dwell | Grid_Sentinel-frontend/src/components/overlays/HealingOverlay.tsx:10-17 | entering HEALING at t arms the timer for t + 3000; the status is still HEALING before then and NORMAL from then on, and the countdown is never touched |
| HealingTimer.ChangeCancels | Grid_Sentinel-frontend/src/components/overlays/HealingOverlay.tsx:15 | leaving HEALING before the timer fires cancels it, so no later instant reverts to NORMAL |
| HealingTimer.RewriteKeepsDeadline | Grid_Sentinel-frontend/src/components/overlays/HealingOverlay.tsx:17 | writing HEALING while already HEALING does not restart the 3000 ms dwell |
| HealingTimer.OnlyHealingToNormal | Grid_Sentinel-frontend/src/components/overlays/HealingOverlay.tsx:11-14 | the only status change the overlay makes on its own is HEALING to NORMAL |
| CriticalAlert.KillSwitch | src/components/overlays/CriticalAlert.tsx:10-15 | the kill switch sets HEALING and clears the countdown, metrics and history untouched |
| CriticalAlert.TimerText | src/components/overlays/CriticalAlert.tsx:54 | the timer text always starts with the fixed "00:0" |
| CriticalAlert.TimerTextReadsBack | src/components/overlays/CriticalAlert.tsx:54 | the digits after the prefix read back as the countdown |
| CriticalAlert.TenReadsAsThreeDigits | src/components/overlays/CriticalAlert.tsx:54 | a countdown of 10 renders as "00:010", and 9 as "00:09" |
| CriticalAlert.TimerTextOverflowsField | src/components/overlays/CriticalAlert.tsx:54 | for 0 to 9 the rendering equals the padded one; from 10 on it is one character too wide |
| CriticalAlert.PaddedTimerText | src/components/overlays/CriticalAlert.tsx:54 | the corrected timer: "00:" then two digits for every countdown below 100 |
| CriticalAlert.PaddedTimerTextReadsBack | src/components/overlays/CriticalAlert.tsx:54 | the corrected field reads back as the countdown |
| TheftPopup.OnStatus | Grid_Sentinel-frontend/src/components/overlays/TheftLocationPopup.tsx:10-22 | only a status change matters. CRITICAL starts scanning with a 3000 ms timer; NORMAL hides the popup; every change cancels a pending scan; the isolate and close timers are left running |
| TheftPopup.WriteStatus | Grid_Sentinel-frontend/src/components/overlays/TheftLocationPopup.tsx:10-22 | the store takes the new status and nothing else. Re-writing the same status leaves the popup as it was. A change to CRITICAL starts scanning with a scan due 3000 ms later; a change to NORMAL hides the popup with no scan pending; any other change only cancels the scan. The isolate and close timers keep running |
| TheftPopup.FireScan | Grid_Sentinel-frontend/src/components/overlays/TheftLocationPopup.tsx:14-16 | a due scan timer moves to found, otherwise nothing happens |
| TheftPopup.Isolate | Grid_Sentinel-frontend/src/components/overlays/TheftLocationPopup.tsx:25-29 | Isolate enters isolating and arms a 2500 ms timer without touching the store |
| TheftPopup.FireIsolate | Grid_Sentinel-frontend/src/components/overlays/TheftLocationPopup.tsx:29-37 | the due isolate timer gives done, status HEALING, and a 2000 ms close timer |
| TheftPopup.FireClose | Grid_Sentinel-frontend/src/components/overlays/TheftLocationPopup.tsx:35-37 | the due close timer hides the popup |
| TheftPopup.Police | Grid_Sentinel-frontend/src/components/overlays/TheftLocationPopup.tsx:40-44 | Police sets HEALING and hides the popup at once |
| TheftPopup.ScanFindsTarget | Grid_Sentinel-frontend/src/components/overlays/TheftLocationPopup.tsx:11-16 | after a change to CRITICAL the popup is still scanning at every instant before 3000 ms and has found the target from then on |
| TheftPopup.ChangeCancelsScan | Grid_Sentinel-frontend/src/components/overlays/TheftLocationPopup.tsx:14-17 | a status change away from CRITICAL during the scan cancels it, so the target is never found |
| TheftPopup.IsolateSequence | Grid_Sentinel-frontend/src/components/overlays/TheftLocationPopup.tsx:25-38 | from the found step: isolating at once with the store untouched, nothing before 2500 ms, then done with HEALING, then hidden 2000 ms later |
| TheftPopup.IsolateOutlivesNormal | Grid_Sentinel-frontend/src/components/overlays/TheftLocationPopup.tsx:18-38 | a return to NORMAL while isolating hides the popup, but the isolate timer still fires, reopens it in the done step and forces HEALING |
| GridChat.Classify | Grid_Sentinel-frontend/src/components/overlays/GridChat.tsx:43-77 | first rule wins: lockdown exactly when "lock" or "shutdown" occurs; report exactly when "status" or "report" occurs and no lockdown keyword does; secure ("secure", "protect"), optimize ("optimize", "fix"), critical test ("critical") and help ("help") each exactly when their keywords occur and no earlier rule's do; nothing is recognised exactly when no keyword occurs |
| GridChat.HandleSend | Grid_Sentinel-frontend/src/components/overlays/GridChat.tsx:29-81 | blank input changes nothing. Otherwise the input box is cleared and exactly the user's message and then one bot reply are appended to the log. Only the status can change, and never to WARNING, since no command writes it |
| GridChat.AnswersCommand | Grid_Sentinel-frontend/src/components/overlays/GridChat.tsx:43-79 | the reply answers the first rule the lower-cased text matches, coloured by that rule. The status is written by lockdown (NORMAL), optimize (HEALING) and critical (CRITICAL) alone |
| GridChat.BlankIgnored | Grid_Sentinel-frontend/src/components/overlays/GridChat.tsx:30-31 | a message is ignored exactly when it is whitespace only |
| GridChat.LockdownWins | Grid_Sentinel-frontend/src/components/overlays/GridChat.tsx:48-51 | any message mentioning lock or shutdown forces NORMAL with an error reply, even when it also says critical, and keeps the countdown |
| GridChat.CaseInsensitive | Grid_Sentinel-frontend/src/components/overlays/GridChat.tsx:43 | a message and its lower-cased form have the same effect and reply |
| Dashboard.ChaosTick | frontend/src/App1.tsx:87-95 | only NORMAL can change, only to CRITICAL, and it does so when the draw is below 0.15; nothing else, the countdown included, changes |
| Dashboard.GatedChaosTick | Grid_Sentinel-frontend/src/App1.tsx:94-106 | with live data on the rule does nothing; otherwise it is the same chaos rule |
| Dashboard.UpdateWeather | Grid_Sentinel-frontend/src/App1.tsx:54-67 | night iff hour >= 18 or < 6; 18 degrees by night and 28 by day; wind never below 5; solar 0 at night and within 60 to 100 by day |
| Dashboard.Co2Linear | Grid_Sentinel-frontend/src/App1.tsx:76-82 | n ticks add exactly 0.05 n |
| Dashboard.ToggleSms | frontend/src/App1.tsx:124-129 | the switch becomes the negation of its old value, which is also the value posted |
| Dashboard.ToggleTwice | frontend/src/App1.tsx:124-129 | toggling twice restores the store |
| Footer.Split | src/components/ui/Footer.tsx:32-37 | hours, minutes and seconds with minutes and seconds below 60 that add back up to the total |
| Footer.SplitUnique | src/components/ui/Footer.tsx:32-36 | that split is the only one with minutes and seconds below 60 |
| Footer.UptimeAfter | src/components/ui/Footer.tsx:24-29 | n one-second ticks from zero give exactly n |
| Footer.Latency | src/components/ui/Footer.tsx:11-14 | the simulated ping lies in 12 to 47 ms |
| Footer.IsSecure | src/components/ui/Footer.tsx:17-18 | the secure flag drops exactly on draws above 0.99 |
| Footer.LagUnreachable | src/components/ui/Footer.tsx:45-48 | the LAG indication (ping above 100 ms) can never appear |
| GridState.Lookup | app/services/state.py:16-17 | a meter is found iff present, with its stored current |
| GridState.UpdateTransformer | app/services/state.py:13-14 | sets the transformer current and nothing else |
| GridState.UpdateMeter | app/services/state.py:16-17 | sets the given meter, keeps every other meter and the transformer, and keeps the ids distinct |
| GridState.PutSum | app/services/state.py:16-17 | the meter total swaps the old reading of that id for the new one; the dict grows only for a new id |
| GridState.CheckForTheft | app/services/state.py:19-33 | never negative; 0 when the meters read more than the transformer; otherwise the difference rounded to two decimals, within 0.005 of it |
| Physics.DetectThermalShock | app/services/physics.py:29-48 | the first call stores the reading and gives 0; zero elapsed time gives 0 and keeps the stored reading; otherwise the rise per minute rounded to three decimals, storing the new reading |
| Physics.RateAboveThreshold | app/services/physics.py:43-48 | rounding never hides a rise at least 0.0005 above a threshold |
| Physics.ScaleAging | app/services/physics.py:21-27 | in demo mode the 4.0 aging alert fires exactly when the raw factor is above 1.0, an overheating factor becomes the hundredfold factor rounded to two decimals, at 100 or more, and a factor of at most 1.0 is only rounded; outside demo mode the factor is only rounded to two decimals, so it stays within 0.005 of the raw value |
| Prediction.AddReading | backend/app/services/prediction.py:15-25 | both buffers gain the new point, drop the oldest past 60, and stay of equal length |
| Prediction.AddAllKeepsNewest | backend/app/services/prediction.py:19-25 | after any run of readings the buffers hold the newest 60, in order |
| Prediction.PredictFailureTime | backend/app/services/prediction.py:27-58 | None with fewer than 10 points or a non-rising slope; otherwise a result exists iff the crossing is 0 to 3600 s ahead, and is those seconds in minutes rounded to one decimal, within 0 to 60 |
| SmsAlerts.LoadConfig | backend/alerts.py:5-7 | SMS is enabled iff the lower-cased setting (default "true") is "true" |
| SmsAlerts.SendSmsAlert | backend/alerts.py:13-30 | the config gate comes first, then the 300 s cooldown, both leaving last_sent alone; a delivery sets last_sent to now; a gateway error reports it and keeps last_sent |
| SmsAlerts.DeliveriesSpaced | backend/alerts.py:9-28 | along any run of attempts, delivered messages are at least 300 s apart |
| Audit.Check | backend/app/routes.py:101-129 | at most one finding per event, unless a report raises |
| Audit.CheckEmptyIff | backend/app/routes.py:104-129 | no finding exactly when every event is linked to its predecessor (or the genesis marker) and matches its recomputed hash |
| Audit.CheckRaisesIff | backend/app/routes.py:107-116 | the scan raises `TypeError` exactly when some event has a broken link with a NULL hash on either side, the one its report slices |
| Audit.VerifyChain | backend/app/routes.py:90-134 | EMPTY_CHAIN iff there are no events; SECURE reports the number of events; CORRUPTED carries at least one finding; a report that raises gives status 500 |
| Audit.SecureIff | backend/app/routes.py:104-134 | a non-empty log is SECURE iff every link and hash checks out, and fails with status 500 iff some broken link has a NULL hash on either side. It is CORRUPTED otherwise |
| Audit.Stored | app/models.py:17-28 | in the modelled writer (the root `app/` tree's `on_message`), an alert is stored with its sensor, event type and value, `previous_hash` at its column default "GENESIS" and `event_hash` NULL |
| Audit.UnsealedLogFailsAudit | backend/app/routes.py:104-116 | a log whose events were stored unsealed is never SECURE: one event is a broken link reported as "GENESIS_" against "GENESIS"; two or more end in status 500 |
| Audit.BuildChain | backend/app/routes.py:108-111 | a reference writer, which no writer in the source is: sealing records onto a chain keeps the chain as a prefix and adds one event each |
| Audit.BuildChainIntact | backend/app/routes.py:108-129 | a chain built by the reference writer, sealing each record onto the last hash, stays intact |
| Audit.SealedChainIsSecure | backend/app/routes.py:90-134 | any log written by the reference writer passes the audit with its full length, whatever the hash function |
| Audit.Report | backend/app/routes.py:113-129 | an event gives at most one report, and none exactly when its link and its hash both check out |
| Audit.SoleFault | backend/app/routes.py:104-132 | a log whose only fault, at one event, does not raise yields exactly that event's one report: a broken link with the eight-character prefixes, or tampering |
| Audit.EditDetected | backend/app/routes.py:118-132 | editing an intact event's value without resealing gives CORRUPTED with the single report "Data Tampering" naming that event's id |
| Audit.RelinkDetected | backend/app/routes.py:107-116 | pointing an intact event's `previous_hash` elsewhere gives CORRUPTED with the single report "Broken Link" naming that event's id and the first eight characters of the expected and the stored link; the data check is skipped |
| Audit.ResetSystem | backend/app/routes.py:140-155 | a wrong secret yields 403 and no wipe; the right one zeroes the transformer and empties the meters and both tables |
| Audit.ResetEmptiesChain | backend/app/routes.py:140-155 | after a reset with the right secret the audit reports EMPTY_CHAIN |
| Audit.GetLiveStatus | backend/app/routes.py:28-36 | reports the transformer current, the meter total, the twin's theft amount (never negative) and "ONLINE" |
| FlatPoll.OnlineNeverAlarms | src/hooks/useRealGridData.ts:28-36 | against the backend's "ONLINE" status the flat poller never changes status or countdown |
| MqttIngest.Remember | app/services/mqtt.py:22-25 | only TX_MAIN_01 and HOUSE_01 are remembered, whatever the device type; other ids change nothing |
| MqttIngest.TransformerAlerts | app/services/mqtt.py:85-120 | aging iff factor > 4.0; shock iff rate > 2.0 and temperature > 29.0; tampering iff vibration > 0.6; audio iff distortion > 3.0; never theft |
| MqttIngest.AlertsCarryReadings | app/services/mqtt.py:88-120 | each transformer event is filed under the sensor and carries the value its check compared |
| MqttIngest.TransformerSms | app/services/mqtt.py:99-115 | a thermal-shock SMS is sent iff the shock event was raised, a tampering SMS iff the tampering event was raised, and no other kind of SMS |
| MqttIngest.OnTransformer | app/services/mqtt.py:65-128 | updates the twin, predictor and shock detector, saves one reading with the prediction, cuts power iff shock fires, and requests SMS for shock and tampering only |
| MqttIngest.Dispatch | app/services/mqtt.py:57-131 | TRANSFORMER runs the transformer branch; METER updates only its meter; other device types do nothing here |
| MqttIngest.TheftCheck | app/services/mqtt.py:136-149 | a GRID_SYSTEM theft event and SMS are appended iff the difference exceeds 0.30 |
| MqttIngest.OnMessage | app/services/mqtt.py:37-156 | an invalid payload changes nothing. Otherwise: theft fires iff TX minus HOUSE exceeds 0.30 for every device type; tampering iff a TRANSFORMER reports vibration above 0.6; METER touches only its meter; the twin stays well formed |
| MqttIngest.DemoAgingFiresAboveOne | app/services/mqtt.py:77-88 | in demo mode a transformer message raises CRITICAL_AGING exactly when the raw factor exceeds 1.0 |
| MqttIngest.PowerCutOnlyOnShock | app/services/mqtt.py:91-96 | the OFF command is published only for a transformer message whose shock check trips |
| MqttIngest.RunRemembersLast | app/services/mqtt.py:49-55 | after any message sequence the remembered currents are the last ones each watched sensor reported |
| GridLlm.BuildContext | app/services/llm.py:19-30 | household load is the meter total; theft YES iff the amount exceeds 0.5; status CRITICAL iff it exceeds 0.5, else NOMINAL |
| GridLlm.MockAnswer | app/services/llm.py:34-40 | the canned answer contains the user's question and the theft flag |
| GridLlm.AskGridSentinel | app/services/llm.py:14-69 | mock mode or no client answers offline with the question echoed; otherwise the model's reply, or the AI error text when the call raised |
| GridLlm.ClientReady | app/services/llm.py:7-12 | a client exists only with an API key and outside mock mode |
| GridLlm.FlagsAgree | app/services/llm.py:27-29 | the context reports theft YES exactly when it reports status CRITICAL |
| GridLlm.BalancedGridIsNominal | app/services/llm.py:22-29 | when the meters account for at least the transformer current, the context is NOMINAL |
| GridLlm.DefaultIsOffline | app/services/llm.py:8-34 | with mock mode on (the shipped default) every question is answered offline, whatever the API key |
| Window.PushAllKeepsNewest | src/store/useGridStore.ts:32 | pushing items one at a time into a bounded buffer equals keeping the newest N of the concatenation |
| Text.TrimEmptyIff | Grid_Sentinel-frontend/src/components/overlays/GridChat.tsx:31 | trimming leaves nothing exactly when the text is all whitespace |
| Text.NatToStringRoundTrip | src/components/ui/Footer.tsx:36 | decimal rendering reads back as the number rendered |

## Left out

- I/O is left out: `fetch`, JSON decoding, the MQTT client and its publish, DB
  sessions and commits, logging, FastAPI wiring, the SMS gateway call, and the
  OpenAI call. Their outcomes are parameters or collected requests.
- Timer and interval concurrency is serialised as explicit steps. Overlapping
  polls, stale React closures and the chat's 600 ms typing delay are not
  modelled.
- Floating point: values are exact reals, and rounding is round-half-up.
  Binary representation, half-to-even ties in Python's `round`, NaN and
  infinities are not modelled. The exception is an alert timestamp that does
  not parse, which is never fresh.
- `Text.Lower` lower-cases ASCII letters only; JavaScript's and Python's full
  Unicode case mapping is not modelled.
- The `LinearRegression` fit, the `np.exp` aging formula, the audio FFT score
  and SHA-256 (`generate_event_hash`) are inputs, not computed.
- The chat's reply texts, the `alert()` dialog of Police, the Excel export, the
  console logs and all rendering other than the predicates named above are
  left out as presentation.
- The flat poller is modelled against a body that carries all its fields. The
  backend's `/status/live` route sends no `temperature`, `current_load` or
  `vibration_freq`, so in the original those metrics would be `undefined`.
- `app/services/sms.py`, which the MQTT handler calls, is not part of this
  model. Its requests are recorded in `MqttIngest.Effects.sms` by event type,
  without message text. `backend/alerts.py` is modelled as the limiter.
- The MQTT handler imports the predictor as `app.services.prediction`; this is
  taken to be `backend/app/services/prediction.py`.
- An exception raised after validation is not modelled, for example by a
  failing DB commit. Such an exception would leave `latest_readings` already
  updated while the events are lost.
- The MQTT OFF publish is the boolean `powerCut`.
- Countdowns are integers. The flat poller's `predicted_failure_seconds` is
  taken to be one.
- The dashboard's history time label comes from `toLocaleTimeString` and is an
  opaque string parameter.
- `GridLlm.MockAnswer` renders numbers with a `show` parameter in place of
  Python's `str(float)`.
- `Audit.VerifyChain`: the 500 answer stands for any exception escaping the
  handler; the framework's error body is not modelled. Event timestamps are
  the text `str(timestamp)` gives, a parameter of the hash.
- `Audit.Stored`: the root `app/models.py` and `app/services/mqtt.py` stand in
  for the backend tree's `Event` model and event writer, which are not part of
  this model; among the files modelled, `backend/app/services/crypto.py`'s
  hasher is called only by the audit itself.
- `Audit.Seal` is a reference writer: no writer among the files modelled seals
  events, so the audit's intact case is reached only by that writer.
- `Audit.ResetSystem`: the wiped tables are modelled as a reading count and an
  event list, not as database rows.

## Findings

| source | as written | input that shows it | evidently intended | confidence | as-written member | corrected member |
|---|---|---|---|---|---|---|
| src/components/overlays/CriticalAlert.tsx:54 | the timer is the literal `00:0` followed by the countdown | countdown 10 renders `00:010`; this happens whenever a backend answers CRITICAL with a prediction of 10 s or more, since the flat poller next to this overlay (src/hooks/useRealGridData.ts:32) stores any truthy `predicted_failure_seconds`; the simulation starts at 9, and the `useGodMode` that src/App.tsx:10,17 mounts is not part of this model | a two-digit seconds field, `00:10` | high; not executed | CriticalAlert.TimerTextOverflowsField | CriticalAlert.PaddedTimerTextReadsBack |
| app/models.py:27-28 | the modelled writer of the `events` table (the root `app/` tree) sets neither hash column, so every event has `previous_hash` "GENESIS" and a NULL `event_hash`; the audit at backend/app/routes.py:115 then slices that NULL | two alerts stored by the MQTT handler: the second event's expected link is the first one's NULL hash, `expected_prev[:8]` raises `TypeError` and the audit answers 500; a single event is CORRUPTED | each event sealed with `generate_event_hash` over the previous event's hash, so the audit reports SECURE | medium: the backend tree's own models and writer are not part of this model; not executed | Audit.UnsealedLogFailsAudit | Audit.SealedChainIsSecure |

=== FILE: audit.dfy ===
/** The backend routes of `backend/app/routes.py` that hold logic: the
    hash-chain audit of the event log, the admin reset, and the live
    status summary.

    SHA-256 over an event's fields (`generate_event_hash`) is a parameter
    `hash`: the audit only compares its outputs. Event timestamps are kept
    as the text the hash is computed over. */
module Audit {
  import opened Wrappers
  import GridState
  import MqttIngest

  const Genesis: string := "GENESIS_BLOCK"

  /** The value the `previous_hash` column takes when a writer leaves it
      unset; `event_hash` has no default and stays NULL. */
  const ColumnDefault: string := "GENESIS"

  /** An `events` row. Both hash columns are nullable. */
  datatype Event = Event(
    id: int,
    sensorId: string,
    eventType: string,
    value: real,
    timestamp: string,
    previousHash: Option<string>,
    eventHash: Option<string>)

  type Hasher = (string, string, real, string, string) -> string

  datatype AuditError =
    | BrokenLink(id: int, expectedPrefix: string, gotPrefix: string)
    | DataTampering(id: int)

  /** The endpoint's answers; an exception escaping the handler is
      answered by the web framework with status 500. */
  datatype AuditResult =
    | EmptyChain
    | Corrupted(errors: seq<AuditError>)
    | Secure(chainLength: nat)
    | ServerError(statusCode: int)

  const InternalServerError: int := 500

  /** Python's `s[:8]`. */
  function Prefix8(s: string): string {
    if |s| <= 8 then s else s[..8]
  }

  /** How an f-string renders an optional text: `None` prints as "None". */
  function Show(s: Option<string>): string {
    match s
    case Some(v) => v
    case None => "None"
  }

  /** What event `i`'s `previous_hash` must be. */
  function ExpectedPrev(events: seq<Event>, i: nat): Option<string>
    requires i < |events|
  {
    if i == 0 then Some(Genesis) else events[i - 1].eventHash
  }

  /** Python's `!=` on two optional texts is the model's `!=` on `Option`. */
  predicate LinkOk(events: seq<Event>, i: nat)
    requires i < |events|
  {
    events[i].previousHash == ExpectedPrev(events, i)
  }

  /** A broken link whose report slices a `None`: the slice raises
      `TypeError` and the whole request fails. */
  predicate ReportRaises(events: seq<Event>, i: nat)
    requires i < |events|
  {
    !LinkOk(events, i) && (ExpectedPrev(events, i).None? || events[i].previousHash.None?)
  }

  function Recalc(hash: Hasher, e: Event): string {
    hash(e.sensorId, e.eventType, e.value, e.timestamp, Show(e.previousHash))
  }

  /** What the loop reports for event `i` when its report does not raise:
      a broken link (and the data check is skipped), else a hash mismatch
      as tampering, else nothing. */
  function Report(events: seq<Event>, hash: Hasher, i: nat): (r: seq<AuditError>)
    requires i < |events| && !ReportRaises(events, i)
    ensures |r| <= 1
    ensures r == [] <==> LinkOk(events, i) && Some(Recalc(hash, events[i])) == events[i].eventHash
  {
    var e := events[i];
    if !LinkOk(events, i) then
      [BrokenLink(e.id, Prefix8(ExpectedPrev(events, i).value), Prefix8(e.previousHash.value))]
    else if Some(Recalc(hash, e)) != e.eventHash then [DataTampering(e.id)]
    else []
  }

  /** The loop's outcome: its findings, or the `TypeError` one of its
      reports raised. */
  datatype Scan = TypeError | Findings(errors: seq<AuditError>)

  /** The findings for events `i` onwards, in id order: a broken link is
      reported and the data check skipped; otherwise a hash mismatch is
      reported as tampering. A report that raises ends the scan. */
  function Check(events: seq<Event>, hash: Hasher, i: nat): (r: Scan)
    requires i <= |events|
    ensures r.Findings? ==> |r.errors| <= |events| - i
    decreases |events| - i
  {
    if i == |events| then Findings([])
    else if ReportRaises(events, i) then TypeError
    else
      var rest := Check(events, hash, i + 1);
      if rest.TypeError? then TypeError
      else Findings(Report(events, hash, i) + rest.errors)
  }

  /** Every event from `i` on is correctly linked and correctly hashed. */
  ghost predicate IntactFrom(events: seq<Event>, hash: Hasher, i: nat)
    requires i <= |events|
  {
    forall k :: i <= k < |events| ==> LinkOk(events, k) && Some(Recalc(hash, events[k])) == events[k].eventHash
  }

  lemma {:induction false} CheckEmptyIff(events: seq<Event>, hash: Hasher, i: nat)
    requires i <= |events|
    ensures Check(events, hash, i) == Findings([]) <==> IntactFrom(events, hash, i)
    decreases |events| - i
  {
    if i < |events| {
      CheckEmptyIff(events, hash, i + 1);
      var here := LinkOk(events, i) && Some(Recalc(hash, events[i])) == events[i].eventHash;
      assert IntactFrom(events, hash, i) <==> here && IntactFrom(events, hash, i + 1);
      if ReportRaises(events, i) {
        assert !here;
      }
    }
  }

  /** The scan raises exactly when some event from `i` on has a broken
      link with a `None` on either side. */
  lemma {:induction false} CheckRaisesIff(events: seq<Event>, hash: Hasher, i: nat)
    requires i <= |events|
    ensures Check(events, hash, i).TypeError? <==> exists k :: i <= k < |events| && ReportRaises(events, k)
    decreases |events| - i
  {
    if i < |events| {
      CheckRaisesIff(events, hash, i + 1);
      if !ReportRaises(events, i) {
        forall k | i <= k < |events| && ReportRaises(events, k) ensures i + 1 <= k { }
      }
    }
  }

  /** `verify_blockchain` over the events in id order. */
  function VerifyChain(events: seq<Event>, hash: Hasher): (r: AuditResult)
    ensures events == [] <==> r == EmptyChain
    ensures r.Secure? ==> r.chainLength == |events|
    ensures r.Corrupted? ==> 0 < |r.errors| <= |events|
    ensures r.ServerError? ==> r.statusCode == InternalServerError
  {
    if events == [] then EmptyChain
    else
      match Check(events, hash, 0)
      case TypeError => ServerError(InternalServerError)
      case Findings(errs) => if errs != [] then Corrupted(errs) else Secure(|events|)
  }

  /** A non-empty log is reported SECURE exactly when every link and every
      hash checks out, fails with status 500 exactly when a broken link
      involves a NULL hash, and is CORRUPTED otherwise. */
  lemma SecureIff(events: seq<Event>, hash: Hasher)
    requires events != []
    ensures VerifyChain(events, hash).Secure? <==> IntactFrom(events, hash, 0)
    ensures VerifyChain(events, hash).ServerError? <==>
      exists k :: 0 <= k < |events| && ReportRaises(events, k)
  {
    CheckEmptyIff(events, hash, 0);
    CheckRaisesIff(events, hash, 0);
  }

  /** The writer modelled here (the root `app/` tree's `on_message`) stores
      an alert without touching either hash column. */
  predicate Unsealed(e: Event) {
    e.previousHash == Some(ColumnDefault) && e.eventHash == None
  }

  /** How `on_message` stores an alert: `id` and `timestamp` are assigned by
      the database; neither hash column is set. */
  function Stored(a: MqttIngest.Alert, id: int, timestamp: string): (e: Event)
    ensures e.id == id && e.timestamp == timestamp
    ensures e.sensorId == a.sensorId && e.eventType == MqttIngest.EventType(a.kind) && e.value == a.value
    ensures Unsealed(e)
  {
    Event(id, a.sensorId, MqttIngest.EventType(a.kind), a.value, timestamp, Some(ColumnDefault), None)
  }

  /** The audit of a log its writers produced: one event is reported as a
      broken link from the genesis marker ("GENESIS" is not
      "GENESIS_BLOCK"); with two or more, the second event's expected link
      is the first one's NULL hash, whose report raises, so the request
      fails with status 500. Such a log is never SECURE. */
  lemma UnsealedLogFailsAudit(events: seq<Event>, hash: Hasher)
    requires forall k :: 0 <= k < |events| ==> Unsealed(events[k])
    ensures |events| == 1 ==>
      VerifyChain(events, hash) == Corrupted([BrokenLink(events[0].id, "GENESIS_", "GENESIS")])
    ensures |events| >= 2 ==> VerifyChain(events, hash) == ServerError(InternalServerError)
    ensures !VerifyChain(events, hash).Secure?
  {
    if |events| >= 1 {
      assert Unsealed(events[0]);
      assert !LinkOk(events, 0) && !ReportRaises(events, 0);
      if |events| == 1 {
        assert Check(events, hash, 1) == Findings([]);
        assert Prefix8(Genesis) == "GENESIS_";
        assert Prefix8(ColumnDefault) == "GENESIS";
        assert Check(events, hash, 0) == Findings([BrokenLink(events[0].id, "GENESIS_", "GENESIS")]);
      } else {
        assert Unsealed(events[1]);
        assert ReportRaises(events, 1);
        assert Check(events, hash, 1) == TypeError;
        assert Check(events, hash, 0) == TypeError;
      }
    }
  }

  /** The fields an event is recorded with, before chaining. */
  datatype Record = Record(id: int, sensorId: string, eventType: string, value: real, timestamp: string)

  /** A reference writer the audit expects: link a record to the last hash
      (or the genesis marker) and seal it with its own hash. */
  function Seal(chain: seq<Event>, rec: Record, hash: Hasher): Event {
    var prev := if chain == [] then Some(Genesis) else chain[|chain| - 1].eventHash;
    Event(rec.id, rec.sensorId, rec.eventType, rec.value, rec.timestamp, prev,
          Some(hash(rec.sensorId, rec.eventType, rec.value, rec.timestamp, Show(prev))))
  }

  function BuildChain(chain: seq<Event>, recs: seq<Record>, hash: Hasher): (r: seq<Event>)
    ensures |r| == |chain| + |recs|
    ensures r[..|chain|] == chain
    decreases |recs|
  {
    if recs == [] then chain else BuildChain(chain + [Seal(chain, recs[0], hash)], recs[1..], hash)
  }

  lemma {:induction false} BuildChainIntact(chain: seq<Event>, recs: seq<Record>, hash: Hasher)
    requires IntactFrom(chain, hash, 0)
    ensures IntactFrom(BuildChain(chain, recs, hash), hash, 0)
    decreases |recs|
  {
    if recs != [] {
      var next := chain + [Seal(chain, recs[0], hash)];
      assert IntactFrom(next, hash, 0) by {
        forall k | 0 <= k < |next|
          ensures LinkOk(next, k) && Some(Recalc(hash, next[k])) == next[k].eventHash
        {
          if k < |chain| {
            assert next[k] == chain[k];
            assert LinkOk(chain, k);
            if k > 0 { assert next[k - 1] == chain[k - 1]; }
          } else if k > 0 {
            assert next[k - 1] == chain[k - 1];
          }
        }
      }
      BuildChainIntact(next, recs[1..], hash);
    }
  }

  /** Round trip: a log written by sealing each record in turn passes the
      audit, whatever the hash function. */
  lemma SealedChainIsSecure(recs: seq<Record>, hash: Hasher)
    requires recs != []
    ensures VerifyChain(BuildChain([], recs, hash), hash) == Secure(|recs|)
  {
    BuildChainIntact([], recs, hash);
    SecureIff(BuildChain([], recs, hash), hash);
  }

  /** A log whose only fault is at event `k`, a fault whose report does not
      raise, yields exactly that one report, from any scan start up to `k`. */
  lemma {:induction false} SoleFault(events: seq<Event>, hash: Hasher, k: nat, i: nat)
    requires k < |events| && i <= |events| && !ReportRaises(events, k)
    requires forall j :: 0 <= j < |events| && j != k ==>
      LinkOk(events, j) && Some(Recalc(hash, events[j])) == events[j].eventHash
    ensures Check(events, hash, i) == Findings(if i <= k then Report(events, hash, k) else [])
    decreases |events| - i
  {
    if i < |events| {
      SoleFault(events, hash, k, i + 1);
      if i != k {
        assert LinkOk(events, i) && Some(Recalc(hash, events[i])) == events[i].eventHash;
        assert Report(events, hash, i) == [];
      }
    }
  }

  /** Editing the value of an intact event without re-sealing it is caught
      and reported as tampering with that event alone, as long as the hash
      tells the two values apart. */
  lemma EditDetected(events: seq<Event>, hash: Hasher, k: nat, v: real)
    requires k < |events| && IntactFrom(events, hash, 0)
    requires Some(Recalc(hash, events[k].(value := v))) != events[k].eventHash
    ensures VerifyChain(events[k := events[k].(value := v)], hash) == Corrupted([DataTampering(events[k].id)])
  {
    var edited := events[k := events[k].(value := v)];
    forall j | 0 <= j < |edited| ensures LinkOk(edited, j) {
      assert LinkOk(events, j);
      if j > 0 { assert edited[j - 1].eventHash == events[j - 1].eventHash; }
    }
    forall j | 0 <= j < |edited| && j != k
      ensures Some(Recalc(hash, edited[j])) == edited[j].eventHash
    {
      assert edited[j] == events[j];
    }
    assert Report(edited, hash, k) == [DataTampering(events[k].id)];
    SoleFault(edited, hash, k, 0);
  }

  /** Pointing an intact event's `previous_hash` at any other text is
      reported as a broken link of that event alone, showing the first
      eight characters of the expected and the stored link; its data check
      is skipped. */
  lemma RelinkDetected(events: seq<Event>, hash: Hasher, k: nat, p: string)
    requires k < |events| && IntactFrom(events, hash, 0)
    requires Some(p) != events[k].previousHash
    ensures events[k].previousHash.Some?
    ensures VerifyChain(events[k := events[k].(previousHash := Some(p))], hash)
      == Corrupted([BrokenLink(events[k].id, Prefix8(events[k].previousHash.value), Prefix8(p))])
  {
    var edited := events[k := events[k].(previousHash := Some(p))];
    assert LinkOk(events, k);
    if k > 0 { assert Some(Recalc(hash, events[k - 1])) == events[k - 1].eventHash; }
    forall j | 0 <= j < |edited| && j != k
      ensures LinkOk(edited, j) && Some(Recalc(hash, edited[j])) == edited[j].eventHash
    {
      assert edited[j] == events[j];
      assert LinkOk(events, j);
      if j > 0 { assert edited[j - 1].eventHash == events[j - 1].eventHash; }
    }
    assert !LinkOk(edited, k) && !ReportRaises(edited, k);
    assert Report(edited, hash, k) ==
      [BrokenLink(events[k].id, Prefix8(events[k].previousHash.value), Prefix8(p))];
    SoleFault(edited, hash, k, 0);
  }

  /** The in-memory twin and the two database tables the reset wipes. */
  datatype Backend = Backend(grid: GridState.State, readingCount: nat, events: seq<Event>)

  datatype ResetResult = Forbidden(statusCode: int) | Wiped(after: Backend)

  /** `reset_system`: a wrong secret is refused with 403 and changes
      nothing; the right one empties both tables and the twin. */
  function ResetSystem(b: Backend, secret: string, adminSecret: string): (r: ResetResult)
    ensures secret != adminSecret ==> r == Forbidden(403)
    ensures secret == adminSecret ==>
      && r.Wiped?
      && r.after.grid.transformerCurrent == 0.0 && r.after.grid.meters == []
      && r.after.readingCount == 0 && r.after.events == []
  {
    if secret != adminSecret then Forbidden(403)
    else Wiped(Backend(GridState.State(0.0, []), 0, []))
  }

  /** After a reset the audit sees an empty chain. */
  lemma ResetEmptiesChain(b: Backend, secret: string, hash: Hasher)
    ensures VerifyChain(ResetSystem(b, secret, secret).after.events, hash) == EmptyChain
  {
  }

  datatype LiveStatus = LiveStatus(transformerCurrent: real, totalLoad: real, theftDetected: real, status: string)

  /** `get_live_status`. */
  function GetLiveStatus(g: GridState.State): (r: LiveStatus)
    ensures r.transformerCurrent == g.transformerCurrent
    ensures r.totalLoad == GridState.Sum(g.meters)
    ensures r.theftDetected == GridState.CheckForTheft(g) && r.theftDetected >= 0.0
    ensures r.status == "ONLINE"
  {
    LiveStatus(g.transformerCurrent, GridState.Sum(g.meters), GridState.CheckForTheft(g), "ONLINE")
  }
}

=== FILE: critical_alert.dfy ===
/** The CRITICAL overlay of `src/components/overlays/CriticalAlert.tsx`:
    shown only in CRITICAL, it renders the countdown and offers the kill
    switch that starts the HEALING sequence. */
module CriticalAlert {
  import opened Wrappers
  import opened GridStore
  import Text

  /** `handleKillSwitch`. */
  function KillSwitch(s: Store): (r: Store)
    ensures r.status == Healing && r.countdown == None
    ensures r.temperature == s.temperature && r.load == s.load
    ensures r.vibration == s.vibration && r.history == s.history
  {
    SetCountdown(SetStatus(s, Healing), None)
  }

  predicate Shown(s: Store) {
    s.status == Critical
  }

  /** React renders `null` as nothing and a number in decimal. */
  function RenderCountdown(c: Option<int>): string {
    match c
    case None => ""
    case Some(n) => Text.IntToString(n)
  }

  /** The text `00:0{countdown}`. */
  function TimerText(c: Option<int>): (t: string)
    ensures |t| >= 4 && t[..4] == "00:0"
    ensures c == None ==> t == "00:0"
  {
    "00:0" + RenderCountdown(c)
  }

  /** The fixed `00:0` prefix makes a two-digit countdown show three
      digits after the colon: 10 seconds reads `00:010`. */
  lemma TenReadsAsThreeDigits()
    ensures TimerText(Some(10)) == "00:010"
    ensures TimerText(Some(9)) == "00:09"
  {
    assert Text.NatToString(10) == Text.NatToString(1) + [Text.DigitChar(0)];
  }

  /** The digits after the prefix always read back as the countdown, so
      distinct non-negative countdowns are always told apart. */
  lemma TimerTextReadsBack(n: nat)
    ensures TimerText(Some(n))[4..] == Text.NatToString(n)
    ensures Text.DigitsValue(TimerText(Some(n))[4..]) == n
  {
    Text.NatToStringRoundTrip(n);
  }

  /** Pressing the kill switch hides the overlay. */
  lemma KillSwitchHides(s: Store)
    ensures !Shown(KillSwitch(s))
  {
  }

  /** The timer as evidently intended: the seconds padded to two digits,
      so that every countdown below 100 fills the same `00:SS` field. */
  function PaddedTimerText(n: nat): (t: string)
    ensures |t| >= 4 && t[..3] == "00:"
    ensures n < 100 ==> |t| == 5
    ensures forall i :: 3 <= i < |t| ==> '0' <= t[i] <= '9'
  {
    Text.ShortNumbers(n);
    "00:" + (if n < 10 then "0" else "") + Text.NatToString(n)
  }

  /** The padded field always reads back as the countdown. */
  lemma PaddedTimerTextReadsBack(n: nat)
    ensures Text.DigitsValue(PaddedTimerText(n)[3..]) == n
  {
    Text.NatToStringRoundTrip(n);
    var digits := Text.NatToString(n);
    if n < 10 {
      assert PaddedTimerText(n)[3..] == "0" + digits;
      Text.LeadingZero(digits);
    } else {
      assert PaddedTimerText(n)[3..] == digits;
    }
  }

  /** Where the two renderings part: they agree on 0 to 9, and from 10 on the
      rendering as written is one character wider than the `00:SS` field. */
  lemma TimerTextOverflowsField(n: nat)
    requires n < 100
    ensures n < 10 ==> TimerText(Some(n)) == PaddedTimerText(n)
    ensures 10 <= n ==> |TimerText(Some(n))| == |PaddedTimerText(n)| + 1
  {
    Text.ShortNumbers(n);
    assert TimerText(Some(n)) == "00:0" + Text.NatToString(n);
  }
}

=== FILE: dashboard.dfy ===
/** The timers and switches of the two dashboard shells,
    `Grid_Sentinel-frontend/src/App1.tsx` (live data on) and
    `frontend/src/App1.tsx` (synthetic data, SMS controls): the 5-second
    chaos rule, the weather and CO2 side panels, and the SMS toggle and
    banner. The hour of day and the `Math.random()` draws are parameters. */
module Dashboard {
  import opened Wrappers
  import opened Numeric
  import opened GridStore
  import SmsStore

  const ChaosChance: real := 0.15

  /** The chaos rule of `frontend/src/App1.tsx`: a NORMAL grid fails with
      probability 0.15 on each 5-second tick; the countdown is not seeded. */
  function ChaosTick(s: Store, draw: real): (r: Store)
    ensures r.status != s.status ==> s.status == Normal && r.status == Critical
    ensures s.status == Normal && draw < ChaosChance ==> r.status == Critical
    ensures r == s.(status := r.status)
  {
    if s.status == Normal && draw < ChaosChance then SetStatus(s, Critical) else s
  }

  /** The chaos rule of `Grid_Sentinel-frontend/src/App1.tsx`: the timer is
      never started while live data is enabled. */
  function GatedChaosTick(s: Store, liveData: bool, draw: real): (r: Store)
    ensures liveData ==> r == s
    ensures !liveData ==> r == ChaosTick(s, draw)
  {
    if liveData then s else ChaosTick(s, draw)
  }

  datatype Weather = Weather(temp: real, condition: string, windSpeed: real, solarIntensity: real, isNight: bool)

  function InitialWeather(): Weather {
    Weather(24.0, "Initializing...", 12.0, 0.0, false)
  }

  predicate IsNightHour(hour: int) {
    hour >= 18 || hour < 6
  }

  /** `updateWeather` for an hour of day and two draws in `[0, 1)`. */
  function UpdateWeather(prev: Weather, hour: int, windDraw: real, solarDraw: real): (w: Weather)
    ensures w.isNight <==> (hour >= 18 || hour < 6)
    ensures w.temp == (if w.isNight then 18.0 else 28.0)
    ensures w.condition == (if w.isNight then "Clear Night" else "Sunny")
    ensures w.windSpeed >= 5.0
    ensures prev.windSpeed >= 7.0 && 0.0 <= windDraw < 1.0 ==> w.windSpeed >= prev.windSpeed - 2.0
    ensures w.isNight ==> w.solarIntensity == 0.0
    ensures !w.isNight ==> 60.0 <= w.solarIntensity <= 100.0
  {
    var night := IsNightHour(hour);
    Weather(
      if night then 18.0 else 28.0,
      if night then "Clear Night" else "Sunny",
      Max(5.0, prev.windSpeed + (windDraw - 0.5) * 4.0),
      if night then 0.0 else Min(100.0, Max(60.0, prev.solarIntensity + (solarDraw - 0.5) * 2.0)),
      night)
  }

  const InitialCo2: real := 1245.50
  const Co2PerTick: real := 0.05

  function Co2Tick(co2: real): (r: real)
    ensures r > co2
  {
    co2 + Co2PerTick
  }

  function Co2After(co2: real, ticks: nat): real {
    if ticks == 0 then co2 else Co2Tick(Co2After(co2, ticks - 1))
  }

  /** After `n` one-second ticks exactly `0.05 n` kg more CO2 has been saved. */
  lemma {:induction false} Co2Linear(co2: real, n: nat)
    ensures Co2After(co2, n) == co2 + Co2PerTick * n as real
  {
    if n > 0 {
      Co2Linear(co2, n - 1);
    }
  }

  /** The SMS toggle: flips the switch and posts the new value to
      `/api/alerts/toggle?enabled=<value>`. */
  function ToggleSms(s: SmsStore.Store): (r: (SmsStore.Store, bool))
    ensures r.0.smsEnabled == !s.smsEnabled
    ensures r.1 == r.0.smsEnabled
    ensures r.0.grid == s.grid && r.0.smsStatus == s.smsStatus
  {
    var newVal := !s.smsEnabled;
    (SmsStore.SetSmsEnabled(s, newVal), newVal)
  }

  /** Toggling twice restores the switch. */
  lemma ToggleTwice(s: SmsStore.Store)
    ensures ToggleSms(ToggleSms(s).0).0 == s
  {
  }

  /** `smsStatus?.sent`: the banner needs a report that says it was sent. */
  predicate SmsBannerShown(s: SmsStore.Store) {
    s.smsStatus.Some? && s.smsStatus.value.sent
  }

  /** The offline badge of the live dashboard. */
  predicate OfflineBadgeShown(liveData: bool, offline: bool) {
    liveData && offline
  }
}

=== FILE: flat_poll.dfy ===
/** One poll by `src/hooks/useRealGridData.ts` against the flat
    `/api/status/live` schema, which carries its own `status` field and an
    optional failure prediction. */
module FlatPoll {
  import opened Wrappers
  import opened GridStore
  import Audit
  import GridState

  /** The decoded body. `predictedFailureSeconds` is `None` when absent or null. */
  datatype Body = Body(
    temperature: real,
    currentLoad: real,
    vibrationFreq: real,
    status: string,
    predictedFailureSeconds: Option<int>)

  datatype Response = Failed | Received(body: Body)

  datatype PollState = PollState(store: Store, offline: bool)

  /** JavaScript truthiness of the prediction: present and non-zero. */
  predicate Truthy(v: Option<int>) {
    v.Some? && v.value != 0
  }

  function Poll(p: PollState, resp: Response, time: string): (r: PollState)
    ensures resp.Failed? ==> r == p.(offline := true)
    ensures resp.Received? ==>
      var b := resp.body;
      && !r.offline
      && r.store.temperature == b.temperature
      && r.store.load == b.currentLoad
      && r.store.vibration == b.vibrationFreq
      && r.store.history == SetMetrics(p.store, b.temperature, b.currentLoad, b.vibrationFreq, time).history
      && (b.status == "CRITICAL" ==> r.store.status == Critical)
      && (b.status == "NORMAL" ==> r.store.status == Normal)
      && (b.status != "CRITICAL" && b.status != "NORMAL" ==> r.store.status == p.store.status)
      && (r.store.countdown != p.store.countdown ==> b.status == "CRITICAL" && Truthy(b.predictedFailureSeconds))
      && (b.status == "CRITICAL" && Truthy(b.predictedFailureSeconds) ==> r.store.countdown == b.predictedFailureSeconds)
  {
    match resp
    case Failed => p.(offline := true)
    case Received(b) =>
      var s1 := SetMetrics(p.store, b.temperature, b.currentLoad, b.vibrationFreq, time);
      var s2 :=
        if b.status == "CRITICAL" then
          var c := SetStatus(s1, Critical);
          if Truthy(b.predictedFailureSeconds) then SetCountdown(c, b.predictedFailureSeconds) else c
        else if b.status == "NORMAL" then SetStatus(s1, Normal)
        else s1;
      PollState(s2, false)
  }

  /** Against the backend's own `/status/live` route, whose status is always
      "ONLINE", this poller never changes the status or the countdown. */
  lemma OnlineNeverAlarms(p: PollState, g: GridState.State, b: Body, time: string)
    requires b.status == Audit.GetLiveStatus(g).status
    ensures Poll(p, Received(b), time).store.status == p.store.status
    ensures Poll(p, Received(b), time).store.countdown == p.store.countdown
  {
  }
}

=== FILE: footer.dfy ===
/** The status footer of `src/components/ui/Footer.tsx`: a simulated ping,
    a secure-connection flag, and an uptime counter rendered as
    `<h>h <m>m <s>s`. */
module Footer {
  import Text

  datatype Uptime = Uptime(hours: nat, minutes: nat, seconds: nat)

  /** The arithmetic of `formatUptime`. */
  function Split(total: nat): (u: Uptime)
    ensures u.minutes < 60 && u.seconds < 60
    ensures u.hours * 3600 + u.minutes * 60 + u.seconds == total
  {
    Uptime(total / 3600, (total % 3600) / 60, total % 60)
  }

  /** The split is the only one with minutes and seconds below 60. */
  lemma SplitUnique(total: nat, u: Uptime)
    requires u.minutes < 60 && u.seconds < 60
    requires u.hours * 3600 + u.minutes * 60 + u.seconds == total
    ensures Split(total) == u
  {
    var v := Split(total);
    assert u.minutes * 60 + u.seconds < 3600;
    assert v.minutes * 60 + v.seconds < 3600;
    assert u.hours == v.hours;
    assert u.minutes == v.minutes;
  }

  /** `formatUptime(totalSeconds)`. */
  function FormatUptime(total: nat): string {
    var u := Split(total);
    Text.NatToString(u.hours) + "h " + Text.NatToString(u.minutes) + "m " + Text.NatToString(u.seconds) + "s"
  }

  /** The uptime counter after `n` one-second ticks from zero. */
  function UptimeAfter(n: nat): (t: nat)
    ensures t == n
  {
    if n == 0 then 0 else UptimeAfter(n - 1) + 1
  }

  /** `Math.floor(r * (48 - 12) + 12)`: the label promises 12 to 48 ms, the
      formula yields 12 to 47. */
  function Latency(r: real): (ms: int)
    requires 0.0 <= r < 1.0
    ensures 12 <= ms <= 47
  {
    (r * 36.0 + 12.0).Floor
  }

  /** The flag is cleared on a draw above 0.99 and set otherwise. */
  function IsSecure(r: real): (secure: bool)
    ensures !secure <==> r > 0.99
  {
    !(r > 0.99)
  }

  predicate LagShown(latencyMs: int) {
    latencyMs > 100
  }

  /** The LAG indication can never appear: every simulated ping is at most 47 ms. */
  lemma LagUnreachable(r: real)
    requires 0.0 <= r < 1.0
    ensures !LagShown(Latency(r))
  {
  }
}

=== FILE: god_mode.dfy ===
/** The keyboard overrides of `Grid_Sentinel-frontend/src/hooks/useGodMode.ts`:
    N forces NORMAL, C forces CRITICAL, H forces HEALING. */
module GodMode {
  import opened Wrappers
  import opened GridStore
  import Text

  /** A `keydown` event: its `key` and whether its target is an input box. */
  datatype KeyEvent = KeyEvent(key: string, targetIsInput: bool)

  /** The override a key selects after lower-casing. */
  datatype Override = ForceNormal | ForceCritical | ForceHeal | TheftVisualOnly | NoOverride

  function Classify(key: string): (o: Override)
    ensures o == ForceNormal <==> Text.Lower(key) == "n"
    ensures o == ForceCritical <==> Text.Lower(key) == "c"
    ensures o == ForceHeal <==> Text.Lower(key) == "h"
  {
    var k := Text.Lower(key);
    if k == "n" then ForceNormal
    else if k == "c" then ForceCritical
    else if k == "h" then ForceHeal
    else if k == "t" then TheftVisualOnly
    else NoOverride
  }

  /** `handleKeyDown`: the store after the event. */
  function HandleKeyDown(s: Store, e: KeyEvent, time: string): (r: Store)
    ensures e.targetIsInput ==> r == s
    ensures !e.targetIsInput && Classify(e.key) == ForceNormal ==>
      && r.status == Normal && r.countdown == None
      && r.temperature == 45.0 && r.load == 12.5 && r.vibration == 50.0
      && r.history == SetMetrics(s, 45.0, 12.5, 50.0, time).history
    ensures !e.targetIsInput && Classify(e.key) == ForceCritical ==>
      && r.status == Critical && r.countdown == Some(10)
      && r.temperature == 89.0 && r.load == 16.2 && r.vibration == 105.0
      && r.history == SetMetrics(s, 89.0, 16.2, 105.0, time).history
    ensures !e.targetIsInput && Classify(e.key) == ForceHeal ==>
      r == s.(status := Healing, countdown := None)
    ensures Classify(e.key) in {TheftVisualOnly, NoOverride} ==> r == s
  {
    if e.targetIsInput then s
    else
      match Classify(e.key)
      case ForceNormal => SetMetrics(SetCountdown(SetStatus(s, Normal), None), 45.0, 12.5, 50.0, time)
      case ForceCritical => SetMetrics(SetCountdown(SetStatus(s, Critical), Some(10)), 89.0, 16.2, 105.0, time)
      case ForceHeal => SetCountdown(SetStatus(s, Healing), None)
      case _ => s
  }

  /** Both cases of each letter select the same override. */
  lemma CaseInsensitive()
    ensures Classify("N") == Classify("n") == ForceNormal
    ensures Classify("C") == Classify("c") == ForceCritical
    ensures Classify("H") == Classify("h") == ForceHeal
    ensures Classify("T") == Classify("t") == TheftVisualOnly
  {
  }

  /** The override depends only on the lower-cased key, so any key and its
      lower-case form select the same one. */
  lemma KeyCaseIgnored(key: string)
    ensures Classify(key) == Classify(Text.Lower(key))
  {
    Text.LowerIdempotent(key);
  }

  /** No key ever produces WARNING, and only N, C and H change the status. */
  lemma NoKeyGivesWarning(s: Store, e: KeyEvent, time: string)
    requires s.status != Warning
    ensures HandleKeyDown(s, e, time).status != Warning
  {
  }
}

=== FILE: grid_chat.dfy ===
/** The command classifier of the operator chat
    (`Grid_Sentinel-frontend/src/components/overlays/GridChat.tsx`, `handleSend`).

    Matching is substring search on the lower-cased message, first rule
    wins. The canned reply texts are identified by the command they answer;
    the 600 ms typing delay is not modelled. */
module GridChat {
  import opened Wrappers
  import opened GridStore
  import Text

  datatype MsgType = Info | Success | Warn | Error

  datatype Command = Lockdown | Report | Secure | Optimize | CriticalTest | Help | Unrecognised

  datatype Message = UserMessage(text: string) | BotMessage(command: Command, msgType: MsgType)

  datatype Chat = Chat(input: string, messages: seq<Message>)

  /** The keyword tests of the rules of `handleSend`, one per rule. */
  predicate SaysLockdown(lower: string) {
    Text.Contains(lower, "lock") || Text.Contains(lower, "shutdown")
  }

  predicate SaysReport(lower: string) {
    Text.Contains(lower, "status") || Text.Contains(lower, "report")
  }

  predicate SaysSecure(lower: string) {
    Text.Contains(lower, "secure") || Text.Contains(lower, "protect")
  }

  predicate SaysOptimize(lower: string) {
    Text.Contains(lower, "optimize") || Text.Contains(lower, "fix")
  }

  /** The rules of `handleSend` in order, applied to the lower-cased text:
      each command is chosen exactly when its keywords occur and no earlier
      rule's keywords do. */
  function Classify(lower: string): (c: Command)
    ensures c == Lockdown <==> SaysLockdown(lower)
    ensures c == Report <==> !SaysLockdown(lower) && SaysReport(lower)
    ensures c == Secure <==> !SaysLockdown(lower) && !SaysReport(lower) && SaysSecure(lower)
    ensures c == Optimize <==>
      !SaysLockdown(lower) && !SaysReport(lower) && !SaysSecure(lower) && SaysOptimize(lower)
    ensures c == CriticalTest <==>
      && !SaysLockdown(lower) && !SaysReport(lower) && !SaysSecure(lower) && !SaysOptimize(lower)
      && Text.Contains(lower, "critical")
    ensures c == Help <==>
      && !SaysLockdown(lower) && !SaysReport(lower) && !SaysSecure(lower) && !SaysOptimize(lower)
      && !Text.Contains(lower, "critical") && Text.Contains(lower, "help")
    ensures c == Unrecognised <==>
      && !SaysLockdown(lower) && !SaysReport(lower) && !SaysSecure(lower) && !SaysOptimize(lower)
      && !Text.Contains(lower, "critical") && !Text.Contains(lower, "help")
  {
    if SaysLockdown(lower) then Lockdown
    else if SaysReport(lower) then Report
    else if SaysSecure(lower) then Secure
    else if SaysOptimize(lower) then Optimize
    else if Text.Contains(lower, "critical") then CriticalTest
    else if Text.Contains(lower, "help") then Help
    else Unrecognised
  }

  /** The reply's colour, which for a report depends on the current status. */
  function TypeOf(c: Command, status: Status): MsgType {
    match c
    case Lockdown => Error
    case Report => if status == Normal then Success else Warn
    case Secure => Success
    case Optimize => Success
    case CriticalTest => Warn
    case Help => Info
    case Unrecognised => Info
  }

  /** The status a command writes, if any; no command touches the countdown. */
  function StatusWriteOf(c: Command): Option<Status> {
    match c
    case Lockdown => Some(Normal)
    case Optimize => Some(Healing)
    case CriticalTest => Some(Critical)
    case _ => None
  }

  /** `textOverride || input`: a quick-action label wins unless it is empty. */
  function MessageText(override: Option<string>, input: string): string {
    if override.Some? && override.value != "" then override.value else input
  }

  /** `handleSend`: ignore blank input; otherwise log the message, clear the
      input box, answer, and apply the command's status write. */
  function HandleSend(chat: Chat, s: Store, override: Option<string>): (r: (Chat, Store))
    ensures var text := MessageText(override, chat.input);
            Text.Trim(text) == [] ==> r == (chat, s)
    ensures var text := MessageText(override, chat.input);
            Text.Trim(text) != [] ==>
              && r.0.input == ""
              && |r.0.messages| == |chat.messages| + 2
              && r.0.messages[..|chat.messages|] == chat.messages
              && r.0.messages[|chat.messages|] == UserMessage(text)
              && r.0.messages[|chat.messages| + 1].BotMessage?
    // only the status moves, and never to WARNING
    ensures r.1.(status := s.status) == s
    ensures r.1.status != s.status ==> r.1.status != Warning
  {
    var text := MessageText(override, chat.input);
    if Text.Trim(text) == [] then (chat, s)
    else
      var c := Classify(Text.Lower(text));
      var reply := BotMessage(c, TypeOf(c, s.status));
      var s' := match StatusWriteOf(c)
                case Some(st) => SetStatus(s, st)
                case None => s;
      (Chat("", chat.messages + [UserMessage(text), reply]), s')
  }

  /** The reply answers the first rule the lower-cased text matches, and
      the status is written by lockdown, optimize and critical alone. */
  lemma AnswersCommand(chat: Chat, s: Store, override: Option<string>)
    ensures var text := MessageText(override, chat.input);
            var c := Classify(Text.Lower(text));
            var r := HandleSend(chat, s, override);
            Text.Trim(text) != [] ==>
              && r.0.messages[|chat.messages| + 1] == BotMessage(c, TypeOf(c, s.status))
              && r.1 == (if StatusWriteOf(c).Some? then SetStatus(s, StatusWriteOf(c).value) else s)
  {
  }

  /** A message is ignored exactly when it consists of whitespace only. */
  lemma BlankIgnored(chat: Chat, s: Store, override: Option<string>)
    ensures HandleSend(chat, s, override) == (chat, s) <==> Text.AllSpace(MessageText(override, chat.input))
  {
    var text := MessageText(override, chat.input);
    Text.TrimEmptyIff(text);
    if Text.Trim(text) != [] {
      assert |HandleSend(chat, s, override).0.messages| == |chat.messages| + 2;
    }
  }

  /** A message containing a keyword is never blank. */
  lemma KeywordNotBlank(text: string, keyword: string)
    requires |keyword| > 0 && !Text.IsSpace(keyword[0])
    requires Text.Contains(Text.Lower(text), keyword)
    ensures Text.Trim(text) != []
  {
    Text.ContainsIff(Text.Lower(text), keyword);
    var i :| Text.OccursAt(Text.Lower(text), keyword, i);
    assert Text.Lower(text)[i] == keyword[0];
    LowerKeepsSpace(text);
    Text.TrimEmptyIff(text);
  }

  /** Lockdown outranks every later rule, "critical" included: any message
      mentioning "lock" or "shutdown" forces NORMAL with an error-coloured
      reply and leaves the countdown alone. */
  lemma LockdownWins(chat: Chat, s: Store, override: Option<string>)
    requires var lower := Text.Lower(MessageText(override, chat.input));
             Text.Contains(lower, "lock") || Text.Contains(lower, "shutdown")
    ensures var r := HandleSend(chat, s, override);
            && r.1.status == Normal && r.1.countdown == s.countdown
            && |r.0.messages| > 0 && r.0.messages[|r.0.messages| - 1] == BotMessage(Lockdown, Error)
  {
    var text := MessageText(override, chat.input);
    if Text.Contains(Text.Lower(text), "lock") {
      KeywordNotBlank(text, "lock");
    } else {
      KeywordNotBlank(text, "shutdown");
    }
    AnswersCommand(chat, s, override);
    assert Classify(Text.Lower(text)) == Lockdown;
    var r := HandleSend(chat, s, override);
    assert |r.0.messages| - 1 == |chat.messages| + 1;
    assert r.1 == SetStatus(s, Normal);
  }

  lemma LowerKeepsSpace(s: string)
    ensures Text.AllSpace(Text.Lower(s)) <==> Text.AllSpace(s)
  {
    if Text.AllSpace(s) {
      forall i | 0 <= i < |s| ensures Text.IsSpace(Text.Lower(s)[i]) {
        assert Text.Lower(s)[i] == s[i];
      }
    }
    if Text.AllSpace(Text.Lower(s)) {
      forall i | 0 <= i < |s| ensures Text.IsSpace(s[i]) {
        assert Text.IsSpace(Text.Lower(s)[i]);
      }
    }
  }

  /** Upper and lower case are alike blank or not. */
  lemma BlankAlike(input: string)
    ensures Text.Trim(input) == [] <==> Text.Trim(Text.Lower(input)) == []
  {
    LowerKeepsSpace(input);
    Text.TrimEmptyIff(input);
    Text.TrimEmptyIff(Text.Lower(input));
  }

  /** Commands are case-insensitive: a message and its lower-cased form
      are answered alike and change the status alike. */
  lemma CaseInsensitive(input: string, s: Store)
    ensures var a := HandleSend(Chat(input, []), s, None);
            var b := HandleSend(Chat(Text.Lower(input), []), s, None);
            && a.1 == b.1
            && |a.0.messages| == |b.0.messages|
            && (|a.0.messages| == 2 ==> a.0.messages[1] == b.0.messages[1])
  {
    var lower := Text.Lower(input);
    assert MessageText(None, input) == input;
    assert MessageText(None, lower) == lower;
    BlankAlike(input);
    Text.LowerIdempotent(input);
    AnswersCommand(Chat(input, []), s, None);
    AnswersCommand(Chat(lower, []), s, None);
  }
}

=== FILE: grid_state.dfy ===
/** The backend's digital twin (`app/services/state.py`): the transformer's
    current and the current of every downstream smart meter, and the theft
    estimate derived from them.

    The Python dict of meters is a sequence of entries in insertion order
    with distinct ids, which is how a dict behaves: updating a known id
    keeps its position, a new id is appended. */
module GridState {
  import opened Wrappers
  import opened Numeric

  datatype Meter = Meter(id: string, current: real)

  datatype State = State(transformerCurrent: real, meters: seq<Meter>)

  predicate DistinctIds(ms: seq<Meter>) {
    forall i, j :: 0 <= i < j < |ms| ==> ms[i].id != ms[j].id
  }

  predicate Valid(g: State) {
    DistinctIds(g.meters)
  }

  function Initial(): (g: State)
    ensures Valid(g)
  {
    State(0.0, [])
  }

  /** `smart_meters.get(id)`. */
  function Lookup(ms: seq<Meter>, id: string): (r: Option<real>)
    ensures r.Some? <==> exists i :: 0 <= i < |ms| && ms[i].id == id
    ensures DistinctIds(ms) ==> forall i :: 0 <= i < |ms| && ms[i].id == id ==> r == Some(ms[i].current)
  {
    if ms == [] then None
    else if ms[0].id == id then Some(ms[0].current)
    else Lookup(ms[1..], id)
  }

  /** `sum(smart_meters.values())`. */
  function Sum(ms: seq<Meter>): real {
    if ms == [] then 0.0 else ms[0].current + Sum(ms[1..])
  }

  /** `smart_meters[id] = current`. */
  function Put(ms: seq<Meter>, id: string, current: real): (r: seq<Meter>)
    ensures Lookup(r, id) == Some(current)
    ensures forall other :: other != id ==> Lookup(r, other) == Lookup(ms, other)
  {
    if ms == [] then [Meter(id, current)]
    else if ms[0].id == id then [Meter(id, current)] + ms[1..]
    else [ms[0]] + Put(ms[1..], id, current)
  }

  /** Every id after a put was already present or is the one put. */
  lemma {:induction false} PutIds(ms: seq<Meter>, id: string, current: real)
    ensures forall i :: 0 <= i < |Put(ms, id, current)| ==>
      Put(ms, id, current)[i].id == id || Lookup(ms, Put(ms, id, current)[i].id).Some?
  {
    if ms != [] && ms[0].id != id {
      PutIds(ms[1..], id, current);
    }
  }

  /** A put keeps the ids distinct: a dict never holds a key twice. */
  lemma {:induction false} PutDistinct(ms: seq<Meter>, id: string, current: real)
    requires DistinctIds(ms)
    ensures DistinctIds(Put(ms, id, current))
  {
    if ms != [] && ms[0].id != id {
      var rest := Put(ms[1..], id, current);
      PutDistinct(ms[1..], id, current);
      PutIds(ms[1..], id, current);
      forall i | 0 <= i < |rest| ensures rest[i].id != ms[0].id {
        if rest[i].id != id {
          assert Lookup(ms[1..], rest[i].id).Some?;
          var j :| 0 <= j < |ms[1..]| && ms[1..][j].id == rest[i].id;
          assert ms[j + 1].id == rest[i].id;
        }
      }
      assert Put(ms, id, current) == [ms[0]] + rest;
    } else if ms != [] {
      assert forall i :: 1 <= i < |ms| ==> ms[i].id != id;
    }
  }

  /** A put replaces the old reading of `id` in the total, or adds a new one;
      the dict grows only for a new id. */
  lemma {:induction false} PutSum(ms: seq<Meter>, id: string, current: real)
    requires DistinctIds(ms)
    ensures Sum(Put(ms, id, current)) == Sum(ms) - Lookup(ms, id).GetOr(0.0) + current
    ensures |Put(ms, id, current)| == if Lookup(ms, id).Some? then |ms| else |ms| + 1
  {
    if ms != [] && ms[0].id != id {
      PutSum(ms[1..], id, current);
    } else if ms != [] {
      assert [Meter(id, current)] + ms[1..] == Put(ms, id, current);
      assert Put(ms, id, current)[1..] == ms[1..];
    }
  }

  /** `update_transformer`. */
  function UpdateTransformer(g: State, current: real): (r: State)
    ensures r.transformerCurrent == current && r.meters == g.meters
  {
    g.(transformerCurrent := current)
  }

  /** `update_meter`. */
  function UpdateMeter(g: State, id: string, current: real): (r: State)
    requires Valid(g)
    ensures Valid(r)
    ensures r.transformerCurrent == g.transformerCurrent
    ensures Lookup(r.meters, id) == Some(current)
    ensures forall other :: other != id ==> Lookup(r.meters, other) == Lookup(g.meters, other)
  {
    PutDistinct(g.meters, id, current);
    g.(meters := Put(g.meters, id, current))
  }

  /** `check_for_theft`: the current unaccounted for by the meters, rounded
      to hundredths, and zero when the meters read more than the source. */
  function CheckForTheft(g: State): (loss: real)
    ensures loss >= 0.0
    ensures Sum(g.meters) > g.transformerCurrent ==> loss == 0.0
    ensures g.transformerCurrent >= Sum(g.meters) ==> loss == Round(g.transformerCurrent - Sum(g.meters), 2)
    ensures loss <= Max(0.0, g.transformerCurrent - Sum(g.meters)) + 0.005
  {
    var raw := g.transformerCurrent - Sum(g.meters);
    if raw < 0.0 then 0.0
    else
      RoundNonNegative(raw, 2);
      RoundIsClose(raw, 2);
      Round(raw, 2)
  }
}

=== FILE: healing_timer.dfy ===
/** The HEALING-to-NORMAL auto-revert of
    `Grid_Sentinel-frontend/src/components/overlays/HealingOverlay.tsx`.

    The overlay's effect depends on `status`: it re-runs only when the
    status actually changes, first cancelling the pending timer and then,
    if the new status is HEALING, scheduling `setStatus('NORMAL')` 3000 ms
    later. The model keeps the timer's due time beside the store; time is
    in milliseconds and passed in. */
module HealingTimer {
  import opened Wrappers
  import opened GridStore

  const DwellMs: int := 3000

  datatype Overlay = Overlay(store: Store, due: Option<int>)

  /** A timer is pending only while the asset is HEALING. */
  predicate Consistent(o: Overlay) {
    o.due.Some? ==> o.store.status == Healing
  }

  /** The effect after a render where the status went from `before` to the
      store's current status. */
  function Effect(due: Option<int>, before: Status, after: Status, now: int): (d: Option<int>)
    ensures before == after ==> d == due
    ensures before != after && after == Healing ==> d == Some(now + DwellMs)
    ensures before != after && after != Healing ==> d == None
  {
    if before == after then due
    else if after == Healing then Some(now + DwellMs)
    else None
  }

  /** Some writer calls `setStatus(status)` at time `now`. */
  function WriteStatus(o: Overlay, status: Status, now: int): (r: Overlay)
    requires Consistent(o)
    ensures Consistent(r)
    ensures r.store == SetStatus(o.store, status)
  {
    Overlay(SetStatus(o.store, status), Effect(o.due, o.store.status, status, now))
  }

  /** The clock reaches `now`; a due timer fires `setStatus('NORMAL')`. */
  function Elapse(o: Overlay, now: int): (r: Overlay)
    requires Consistent(o)
    ensures Consistent(r)
    ensures o.due.Some? && now >= o.due.value ==>
      r.store == o.store.(status := Normal) && r.due == None
    ensures !(o.due.Some? && now >= o.due.value) ==> r == o
  {
    if o.due.Some? && now >= o.due.value then
      var fired := SetStatus(o.store, Normal);
      Overlay(fired, Effect(None, o.store.status, Normal, now))
    else o
  }

  /** Entering HEALING at `t`: still HEALING at every instant before
      `t + 3000`, NORMAL from `t + 3000` on, and the countdown is untouched. */
  lemma Dwell(o: Overlay, t: int, later: int)
    requires Consistent(o) && o.store.status != Healing
    ensures var h := WriteStatus(o, Healing, t);
            && h.due == Some(t + DwellMs)
            && (later < t + DwellMs ==> Elapse(h, later).store.status == Healing)
            && (later >= t + DwellMs ==> Elapse(h, later).store.status == Normal)
            && Elapse(h, later).store.countdown == o.store.countdown
  {
  }

  /** Leaving HEALING before the timer fires cancels it: no later instant
      produces the revert. */
  lemma ChangeCancels(o: Overlay, status: Status, now: int, later: int)
    requires Consistent(o) && o.store.status == Healing && status != Healing
    ensures WriteStatus(o, status, now).due == None
    ensures Elapse(WriteStatus(o, status, now), later) == WriteStatus(o, status, now)
  {
  }

  /** Writing HEALING again while HEALING does not restart the dwell. */
  lemma RewriteKeepsDeadline(o: Overlay, now: int)
    requires Consistent(o) && o.store.status == Healing
    ensures WriteStatus(o, Healing, now).due == o.due
  {
  }

  /** The overlay's own transition is HEALING to NORMAL and nothing else. */
  lemma OnlyHealingToNormal(o: Overlay, now: int)
    requires Consistent(o)
    ensures Elapse(o, now).store.status != o.store.status ==>
      o.store.status == Healing && Elapse(o, now).store.status == Normal
  {
  }
}

=== FILE: live_poll.dfy ===
/** One poll of the live backend by `Grid_Sentinel-frontend/src/hooks/useRealGridData.ts`
    against the nested `/api/live` schema: `{ transformer, alerts }`.

    The HTTP exchange is a parameter (`Response`), as are the clock and the
    time label of the history point. */
module LivePoll {
  import opened Wrappers
  import opened GridStore

  /** An alert's timestamp in milliseconds since the epoch; `None` when
      `new Date(timestamp)` cannot parse it (its time is then NaN). */
  datatype Alert = Alert(timestamp: Option<int>)

  /** The `transformer` reading; a missing or null `vibration` is `None`. */
  datatype Transformer = Transformer(temperature: real, current: real, vibration: Option<real>)

  /** The decoded body; `None` stands for a null or absent field. */
  datatype Body = Body(transformer: Option<Transformer>, alerts: Option<seq<Alert>>)

  /** `Failed` covers a rejected fetch, a non-ok status and an unparsable body:
      each makes the source throw before any store write. */
  datatype Response = Failed | Received(body: Body)

  /** The store plus the hook's own `isOffline` flag. */
  datatype PollState = PollState(store: Store, offline: bool)

  const FreshWindowMs: int := 10000
  const AlertCountdown: int := 10
  const VibrationScale: real := 100.0

  /** An alert is fresh when it is less than ten seconds old; an unparsable
      timestamp is never fresh, since every comparison with NaN is false. */
  predicate IsFresh(a: Alert, now: int) {
    a.timestamp.Some? && now - a.timestamp.value < FreshWindowMs
  }

  /** The newest alert (the first one) is fresh. */
  predicate HasFreshAlert(alerts: Option<seq<Alert>>, now: int) {
    alerts.Some? && |alerts.value| > 0 && IsFresh(alerts.value[0], now)
  }

  /** One `fetchData` call. */
  function Poll(p: PollState, resp: Response, now: int, time: string): (r: PollState)
    // transport or decoding failure: offline, and the store is untouched
    ensures resp.Failed? ==> r == p.(offline := true)
    // reachable backend without data yet: a complete no-op
    ensures resp.Received? && resp.body.transformer.None? ==> r == p
    // a reading: the sample is stored, the flag cleared, and the status follows the alerts
    ensures resp.Received? && resp.body.transformer.Some? ==>
      var t := resp.body.transformer.value;
      && !r.offline
      && r.store.temperature == t.temperature
      && r.store.load == t.current
      && r.store.vibration == t.vibration.GetOr(0.0) * VibrationScale
      && r.store.history == SetMetrics(p.store, t.temperature, t.current, r.store.vibration, time).history
      && (r.store.status == Critical <==> HasFreshAlert(resp.body.alerts, now))
      && (r.store.status != Critical ==> r.store.status == Normal)
      && r.store.countdown == (if HasFreshAlert(resp.body.alerts, now) then Some(AlertCountdown) else p.store.countdown)
  {
    match resp
    case Failed => p.(offline := true)
    case Received(body) =>
      if body.transformer.None? then p
      else
        var t := body.transformer.value;
        var vib := t.vibration.GetOr(0.0) * VibrationScale;
        var s1 := SetMetrics(p.store, t.temperature, t.current, vib, time);
        var s2 :=
          if body.alerts.Some? && |body.alerts.value| > 0 then
            if IsFresh(body.alerts.value[0], now) then SetCountdown(SetStatus(s1, Critical), Some(AlertCountdown))
            else SetStatus(s1, Normal)
          else SetStatus(s1, Normal);
        PollState(s2, false)
  }

  /** The boundary: an alert exactly ten seconds old is already stale. */
  lemma BoundaryIsStale(t: int)
    ensures !IsFresh(Alert(Some(t)), t + FreshWindowMs)
    ensures IsFresh(Alert(Some(t)), t + FreshWindowMs - 1)
  {
  }

  /** A failed poll followed by a successful one shows the flag sequence
      `[true, false]`, and the failed poll kept the previous sample. */
  lemma FailureThenSuccess(p: PollState, body: Body, now1: int, now2: int, time: string)
    requires body.transformer.Some?
    ensures var p1 := Poll(p, Failed, now1, time);
            var p2 := Poll(p1, Received(body), now2, time);
            && p1.offline && !p2.offline
            && p1.store.temperature == p.store.temperature
            && p1.store.load == p.store.load
            && p1.store.vibration == p.store.vibration
  {
  }

  /** The countdown is not cleared on the way back to NORMAL: a stale alert
      after a fresh one leaves NORMAL with the old countdown still set. */
  lemma NormalKeepsCountdown(p: PollState, t: Transformer, ts: int, time: string)
    ensures var p1 := Poll(p, Received(Body(Some(t), Some([Alert(Some(ts))]))), ts, time);
            var p2 := Poll(p1, Received(Body(Some(t), Some([Alert(Some(ts))]))), ts + FreshWindowMs, time);
            && p1.store.status == Critical && p1.store.countdown == Some(AlertCountdown)
            && p2.store.status == Normal && p2.store.countdown == Some(AlertCountdown)
  {
  }
}

=== FILE: llm.dfy ===
/** `ask_grid_sentinel` (`app/services/llm.py`): the live context drawn
    from the digital twin, and the choice between the canned offline answer
    and the language model's reply.

    The chat completion itself is an input (`Completion`), and so is the
    rendering of a float with `str` (`show`). */
module GridLlm {
  import GridState
  import Text

  /** Theft above this many amps turns the context to YES / CRITICAL. */
  const TheftAlertAmps: real := 0.5

  datatype Context = Context(
    transformerLoad: real,
    householdLoad: real,
    theftDetected: string,
    theftAmount: real,
    systemStatus: string)

  /** The context dictionary, with its numbers kept as numbers. */
  function BuildContext(g: GridState.State): (c: Context)
    ensures c.transformerLoad == g.transformerCurrent
    ensures c.householdLoad == GridState.Sum(g.meters)
    ensures c.theftAmount == GridState.CheckForTheft(g)
    ensures c.theftDetected == "YES" <==> c.theftAmount > TheftAlertAmps
    ensures c.theftDetected == "YES" || c.theftDetected == "NO"
    ensures c.systemStatus == "CRITICAL" <==> c.theftAmount > TheftAlertAmps
    ensures c.systemStatus == "CRITICAL" || c.systemStatus == "NOMINAL"
  {
    var theft := GridState.CheckForTheft(g);
    var alarmed := theft > TheftAlertAmps;
    Context(g.transformerCurrent, GridState.Sum(g.meters), if alarmed then "YES" else "NO",
            theft, if alarmed then "CRITICAL" else "NOMINAL")
  }

  /** The two flags always agree: the assistant never reports theft on a
      NOMINAL grid or a CRITICAL grid without theft. */
  lemma FlagsAgree(g: GridState.State)
    ensures BuildContext(g).theftDetected == "YES" <==> BuildContext(g).systemStatus == "CRITICAL"
  {
  }

  /** No theft is reported while the meters account for the transformer's
      current, whatever the meter readings are. */
  lemma BalancedGridIsNominal(g: GridState.State)
    requires GridState.Sum(g.meters) >= g.transformerCurrent
    ensures BuildContext(g).systemStatus == "NOMINAL"
  {
  }

  /** The module-level client: built only with an API key and outside mock
      mode, and only if its construction did not fail. */
  function ClientReady(hasApiKey: bool, useMock: bool, constructed: bool): (ready: bool)
    ensures ready ==> hasApiKey && !useMock
  {
    hasApiKey && !useMock && constructed
  }

  /** What the completion call came back with. */
  datatype Completion = Reply(content: string) | Raised(error: string)

  const MockPrefix: string := "\U{26A1} [MOCK AI]: I am operating in Offline Mode. \nCurrent Transformer Load: "
  const MockUnit: string := " A. \n"
  const TheftLabel: string := "Theft Status: "
  const MockAsk: string := ". \nI received your question: '"
  const MockTail: string := "' - but cannot process it without an API Key."

  /** The canned offline answer; it echoes the question. */
  function MockAnswer(c: Context, question: string, show: real -> string): (a: string)
    ensures Text.Contains(a, question)
    ensures Text.Contains(a, TheftLabel + c.theftDetected)
  {
    var head := MockPrefix + show(c.transformerLoad) + MockUnit;
    var status := TheftLabel + c.theftDetected;
    var rest := MockAsk + question + MockTail;
    Text.ContainsInfix(head + status + MockAsk, question, MockTail);
    Text.ContainsInfix(head, status, rest);
    assert head + status + MockAsk + question + MockTail == head + status + rest;
    head + status + rest
  }

  datatype Answer = Offline(text: string) | Live(text: string) | AiError(text: string)

  /** `ask_grid_sentinel`: offline (mock mode or no client) answers with the
      canned text and makes no call; otherwise the model's reply, or the
      error text when the call raised. */
  function AskGridSentinel(g: GridState.State, question: string, useMock: bool, clientReady: bool,
                           call: Completion, show: real -> string): (a: Answer)
    ensures useMock || !clientReady ==> a.Offline? && Text.Contains(a.text, question)
    ensures !useMock && clientReady && call.Reply? ==> a == Live(call.content)
    ensures !useMock && clientReady && call.Raised? ==>
      a.AiError? && a.text == "\U{26A0}\U{FE0F} AI Error: " + call.error
  {
    if useMock || !clientReady then Offline(MockAnswer(BuildContext(g), question, show))
    else match call
      case Reply(content) => Live(content)
      case Raised(error) => AiError("\U{26A0}\U{FE0F} AI Error: " + error)
  }

  /** With the default settings (mock mode on) every question is answered
      offline, so no configuration of keys makes the live model reachable. */
  lemma DefaultIsOffline(g: GridState.State, question: string, hasApiKey: bool, constructed: bool,
                         call: Completion, show: real -> string)
    ensures AskGridSentinel(g, question, true, ClientReady(hasApiKey, true, constructed), call, show).Offline?
  {
  }
}

=== FILE: mqtt.dfy ===
/** The decision logic of the backend's MQTT `on_message` handler
    (`app/services/mqtt.py`): which memory a sensor message updates, which
    alerts it raises, and what it hands to the database, the power switch
    and the SMS service.

    The database session, the MQTT publish and the SMS call are not
    performed: their requests are collected in `Effects`. The wall clock,
    the regression fit, the raw aging factor (`np.exp`) and the audio
    distortion score are inputs. */
module MqttIngest {
  import opened Wrappers
  import GridState
  import Physics
  import Prediction

  const TxId: string := "TX_MAIN_01"
  const HouseId: string := "HOUSE_01"
  const GridSystemId: string := "GRID_SYSTEM"
  const Transformer: string := "TRANSFORMER"
  const Meter: string := "METER"

  const TheftThreshold: real := 0.30
  const ShockRate: real := 2.0
  const ShockTemperature: real := 29.0
  const TamperVibration: real := 0.6
  const AudioDistortion: real := 3.0
  const LimitTemperature: real := 100.0

  /** The two watched currents of `latest_readings`. */
  datatype Latest = Latest(tx: real, house: real)

  /** A message that passed `SensorData` validation. A missing audio
      waveform is the empty sequence (both are falsy). */
  datatype SensorData = SensorData(
    sensorId: string,
    deviceType: string,
    temperature: real,
    current: real,
    vibration: real,
    audio: seq<real>,
    timestamp: real)

  datatype Payload = Invalid | Parsed(data: SensorData)

  datatype EventKind = CriticalAging | ThermalShock | PhysicalTampering | AudioFail | TheftDetected

  /** The `event_type` column each kind is stored under. */
  function EventType(k: EventKind): string {
    match k
    case CriticalAging => "CRITICAL_AGING"
    case ThermalShock => "THERMAL_SHOCK"
    case PhysicalTampering => "PHYSICAL_TAMPERING"
    case AudioFail => "AUDIO_FAIL"
    case TheftDetected => "THEFT_DETECTED"
  }

  /** An `Event` row: who raised it, what, and the value that tripped it. */
  datatype Alert = Alert(sensorId: string, kind: EventKind, value: real)

  /** A `Reading` row for a transformer message. */
  datatype Reading = Reading(temperature: real, current: real, vibration: real, predictedFailureMin: Option<real>)

  /** What one message asks of the outside world. */
  datatype Effects = Effects(events: seq<Alert>, readings: seq<Reading>, powerCut: bool, sms: seq<EventKind>)

  function NoEffects(): Effects {
    Effects([], [], false, [])
  }

  /** The handler's memory: `latest_readings`, the digital twin, the
      thermal-shock detector and the failure predictor. */
  datatype Ingest = Ingest(latest: Latest, grid: GridState.State, shock: Physics.Shock, oracle: Prediction.Predictor)

  predicate Valid(st: Ingest) {
    GridState.Valid(st.grid) && Prediction.Valid(st.oracle)
  }

  function Initial(): (st: Ingest)
    ensures Valid(st)
  {
    Ingest(Latest(0.0, 0.0), GridState.Initial(), Physics.InitialShock(), Prediction.Initial())
  }

  /** What the handler cannot compute itself: the clock (`time.time()`),
      the regression through the predictor's window, the unscaled aging
      factor, the audio engine's score, and the demo-mode setting. */
  datatype Inputs = Inputs(nowSec: real, fit: Prediction.Fit, rawAging: real, distortion: real, demoMode: bool)

  /** Only the two watched ids are remembered, whatever the device type. */
  function Remember(l: Latest, id: string, current: real): (r: Latest)
    ensures id == TxId ==> r == l.(tx := current)
    ensures id == HouseId ==> r == l.(house := current)
    ensures id != TxId && id != HouseId ==> r == l
  {
    if id == TxId then l.(tx := current)
    else if id == HouseId then l.(house := current)
    else l
  }

  function Diff(l: Latest): real {
    l.tx - l.house
  }

  /** The event types of a batch of events, in order. */
  function Kinds(es: seq<Alert>): (ks: seq<EventKind>)
    ensures |ks| == |es|
    ensures forall i :: 0 <= i < |es| ==> ks[i] == es[i].kind
  {
    if es == [] then [] else [es[0].kind] + Kinds(es[1..])
  }

  predicate Raised(es: seq<Alert>, k: EventKind) {
    k in Kinds(es)
  }

  lemma KindsAppend(a: seq<Alert>, b: seq<Alert>)
    ensures Kinds(a + b) == Kinds(a) + Kinds(b)
  {
  }

  lemma RaisedIn4(a: seq<Alert>, b: seq<Alert>, c: seq<Alert>, d: seq<Alert>, k: EventKind)
    ensures Raised(a + b + c + d, k) <==> Raised(a, k) || Raised(b, k) || Raised(c, k) || Raised(d, k)
  {
    KindsAppend(a, b);
    KindsAppend(a + b, c);
    KindsAppend(a + b + c, d);
  }

  /** The alert a check raises when its condition holds. */
  function When(cond: bool, a: Alert): (es: seq<Alert>)
    ensures forall k :: Raised(es, k) <==> cond && k == a.kind
    ensures es == [] || es == [a]
  {
    if cond then [a] else []
  }

  /** The SMS alerts a transformer message sends: one for a thermal shock,
      one for tampering, in that order. */
  function TransformerSms(events: seq<Alert>): (ks: seq<EventKind>)
    ensures ThermalShock in ks <==> Raised(events, ThermalShock)
    ensures PhysicalTampering in ks <==> Raised(events, PhysicalTampering)
    ensures forall k :: k in ks ==> k == ThermalShock || k == PhysicalTampering
  {
    (if Raised(events, ThermalShock) then [ThermalShock] else [])
      + (if Raised(events, PhysicalTampering) then [PhysicalTampering] else [])
  }

  /** The reading each transformer check compares against its threshold. */
  function ValueOf(k: EventKind, aging: real, rate: real, vibration: real, distortion: real): real {
    match k
    case CriticalAging => aging
    case ThermalShock => rate
    case PhysicalTampering => vibration
    case AudioFail => distortion
    case TheftDetected => 0.0
  }

  /** The transformer checks A to D, in the order they are written. */
  function TransformerAlerts(sensorId: string, temperature: real, vibration: real, aging: real, rate: real, distortion: real): (es: seq<Alert>)
    ensures Raised(es, CriticalAging) <==> aging > Physics.AgingAlert
    ensures Raised(es, ThermalShock) <==> rate > ShockRate && temperature > ShockTemperature
    ensures Raised(es, PhysicalTampering) <==> vibration > TamperVibration
    ensures Raised(es, AudioFail) <==> distortion > AudioDistortion
    ensures !Raised(es, TheftDetected)
  {
    var a := When(aging > Physics.AgingAlert, Alert(sensorId, CriticalAging, aging));
    var b := When(rate > ShockRate && temperature > ShockTemperature, Alert(sensorId, ThermalShock, rate));
    var c := When(vibration > TamperVibration, Alert(sensorId, PhysicalTampering, vibration));
    var d := When(distortion > AudioDistortion, Alert(sensorId, AudioFail, distortion));
    RaisedIn4(a, b, c, d, CriticalAging);
    RaisedIn4(a, b, c, d, ThermalShock);
    RaisedIn4(a, b, c, d, PhysicalTampering);
    RaisedIn4(a, b, c, d, AudioFail);
    RaisedIn4(a, b, c, d, TheftDetected);
    a + b + c + d
  }

  /** Every transformer event is filed under the reporting sensor and
      carries the reading its check compared. */
  lemma AlertsCarryReadings(sensorId: string, temperature: real, vibration: real, aging: real, rate: real, distortion: real)
    ensures forall x :: x in TransformerAlerts(sensorId, temperature, vibration, aging, rate, distortion) ==>
      x.sensorId == sensorId && x.value == ValueOf(x.kind, aging, rate, vibration, distortion)
  {
    var a := When(aging > Physics.AgingAlert, Alert(sensorId, CriticalAging, aging));
    var b := When(rate > ShockRate && temperature > ShockTemperature, Alert(sensorId, ThermalShock, rate));
    var c := When(vibration > TamperVibration, Alert(sensorId, PhysicalTampering, vibration));
    var d := When(distortion > AudioDistortion, Alert(sensorId, AudioFail, distortion));
    assert TransformerAlerts(sensorId, temperature, vibration, aging, rate, distortion) == a + b + c + d;
    forall x: Alert | x in a + b + c + d
      ensures x.sensorId == sensorId && x.value == ValueOf(x.kind, aging, rate, vibration, distortion)
    {
      assert x in a || x in b || x in c || x in d;
    }
  }

  /** The transformer branch: twin, predictor and detector are updated, the
      alerts raised, and one reading saved with the prediction. */
  function OnTransformer(st: Ingest, d: SensorData, env: Inputs): (r: (Ingest, Effects))
    requires Valid(st)
    ensures Valid(r.0) && r.0.latest == st.latest
    ensures r.0.grid == GridState.UpdateTransformer(st.grid, d.current)
    ensures r.0.oracle == Prediction.AddReading(st.oracle, d.temperature, env.nowSec)
    ensures r.0.shock == Physics.DetectThermalShock(st.shock, d.temperature, d.timestamp).1
    ensures r.1.readings == [Reading(d.temperature, d.current, d.vibration,
                                     Prediction.PredictFailureTime(r.0.oracle, LimitTemperature, env.fit))]
    ensures r.1.events == TransformerAlerts(d.sensorId, d.temperature, d.vibration,
                                            Physics.ScaleAging(env.rawAging, env.demoMode),
                                            Physics.DetectThermalShock(st.shock, d.temperature, d.timestamp).0,
                                            if d.audio == [] then 0.0 else env.distortion)
    ensures r.1.powerCut <==> Raised(r.1.events, ThermalShock)
    ensures ThermalShock in r.1.sms <==> Raised(r.1.events, ThermalShock)
    ensures PhysicalTampering in r.1.sms <==> Raised(r.1.events, PhysicalTampering)
    ensures forall k :: k in r.1.sms ==> k == ThermalShock || k == PhysicalTampering
    ensures !Raised(r.1.events, TheftDetected) && TheftDetected !in r.1.sms
  {
    var oracle := Prediction.AddReading(st.oracle, d.temperature, env.nowSec);
    var shock := Physics.DetectThermalShock(st.shock, d.temperature, d.timestamp);
    var events := TransformerAlerts(d.sensorId, d.temperature, d.vibration,
                                    Physics.ScaleAging(env.rawAging, env.demoMode), shock.0,
                                    if d.audio == [] then 0.0 else env.distortion);
    var cut := Raised(events, ThermalShock);
    var sms := TransformerSms(events);
    (Ingest(st.latest, GridState.UpdateTransformer(st.grid, d.current), shock.1, oracle),
     Effects(events, [Reading(d.temperature, d.current, d.vibration,
                              Prediction.PredictFailureTime(oracle, LimitTemperature, env.fit))], cut, sms))
  }

  /** Step 3: the branch on the device type. Meters only update their own
      entry of the twin; unknown device types do nothing here. */
  function Dispatch(st: Ingest, d: SensorData, env: Inputs): (r: (Ingest, Effects))
    requires Valid(st)
    ensures Valid(r.0) && r.0.latest == st.latest
    ensures !Raised(r.1.events, TheftDetected) && TheftDetected !in r.1.sms
    ensures Raised(r.1.events, PhysicalTampering) <==>
      d.deviceType == Transformer && d.vibration > TamperVibration
    ensures d.deviceType == Transformer ==> r == OnTransformer(st, d, env)
    ensures d.deviceType == Meter ==>
      r == (st.(grid := GridState.UpdateMeter(st.grid, d.sensorId, d.current)), NoEffects())
    ensures d.deviceType != Transformer && d.deviceType != Meter ==> r == (st, NoEffects())
  {
    if d.deviceType == Transformer then
      OnTransformer(st, d, env)
    else
      assert Kinds(NoEffects().events) == [];
      if d.deviceType == Meter then (st.(grid := GridState.UpdateMeter(st.grid, d.sensorId, d.current)), NoEffects())
      else (st, NoEffects())
  }

  /** Step 4, run for every valid message: the theft event and its SMS,
      appended after whatever the device branch produced. */
  function TheftCheck(l: Latest, e: Effects): (r: Effects)
    ensures Diff(l) > TheftThreshold ==>
      && r.events == e.events + [Alert(GridSystemId, TheftDetected, Diff(l))]
      && r.sms == e.sms + [TheftDetected]
    ensures Diff(l) <= TheftThreshold ==> r == e
    ensures r.readings == e.readings && r.powerCut == e.powerCut
    ensures forall k :: Raised(r.events, k) <==> Raised(e.events, k) || (k == TheftDetected && Diff(l) > TheftThreshold)
    ensures forall k :: k in r.sms <==> k in e.sms || (k == TheftDetected && Diff(l) > TheftThreshold)
  {
    if Diff(l) > TheftThreshold then
      var theft := Alert(GridSystemId, TheftDetected, Diff(l));
      KindsAppend(e.events, [theft]);
      e.(events := e.events + [theft], sms := e.sms + [TheftDetected])
    else e
  }

  /** `on_message` for one payload. */
  function OnMessage(st: Ingest, p: Payload, env: Inputs): (r: (Ingest, Effects))
    requires Valid(st)
    ensures Valid(r.0)
    // a payload that fails validation is dropped without a trace
    ensures p.Invalid? ==> r == (st, NoEffects())
    ensures p.Parsed? ==> r.0.latest == Remember(st.latest, p.data.sensorId, p.data.current)
    // theft is judged on the remembered currents, for every device type
    ensures p.Parsed? ==>
      (Raised(r.1.events, TheftDetected) <==> Diff(r.0.latest) > TheftThreshold)
    ensures p.Parsed? ==>
      (TheftDetected in r.1.sms <==> Diff(r.0.latest) > TheftThreshold)
    // tampering is a transformer-only check
    ensures p.Parsed? ==>
      (Raised(r.1.events, PhysicalTampering) <==>
        p.data.deviceType == Transformer && p.data.vibration > TamperVibration)
    ensures p.Parsed? && p.data.deviceType == Meter ==>
      && r.0.grid == GridState.UpdateMeter(st.grid, p.data.sensorId, p.data.current)
      && r.0.shock == st.shock && r.0.oracle == st.oracle
      && r.1.readings == [] && !r.1.powerCut
    ensures p.Parsed? && p.data.deviceType != Transformer && p.data.deviceType != Meter ==>
      && r.0.grid == st.grid && r.0.shock == st.shock && r.0.oracle == st.oracle
      && r.1.readings == [] && !r.1.powerCut
    ensures p.Parsed? && p.data.deviceType == Transformer ==>
      && r.0.grid == GridState.UpdateTransformer(st.grid, p.data.current)
      && |r.1.readings| == 1
  {
    match p
    case Invalid => (st, NoEffects())
    case Parsed(d) =>
      var latest := Remember(st.latest, d.sensorId, d.current);
      var step := Dispatch(st, d, env);
      (step.0.(latest := latest), TheftCheck(latest, step.1))
  }

  /** In demo mode a transformer message raises the aging alert exactly when
      the raw factor exceeds 1.0, four times below the configured 4.0. */
  lemma DemoAgingFiresAboveOne(st: Ingest, d: SensorData, env: Inputs)
    requires Valid(st) && d.deviceType == Transformer && env.demoMode
    ensures Raised(OnMessage(st, Parsed(d), env).1.events, CriticalAging) <==> env.rawAging > 1.0
  {
    var eff := OnTransformer(st, d, env).1;
    var latest := Remember(st.latest, d.sensorId, d.current);
    assert OnMessage(st, Parsed(d), env).1 == TheftCheck(latest, eff);
    assert Raised(eff.events, CriticalAging) <==> Physics.ScaleAging(env.rawAging, env.demoMode) > Physics.AgingAlert;
  }

  /** The power is cut only by a transformer message whose thermal-shock
      check trips. */
  lemma PowerCutOnlyOnShock(st: Ingest, p: Payload, env: Inputs)
    requires Valid(st)
    ensures OnMessage(st, p, env).1.powerCut ==>
      p.Parsed? && p.data.deviceType == Transformer && p.data.temperature > ShockTemperature
      && Physics.DetectThermalShock(st.shock, p.data.temperature, p.data.timestamp).0 > ShockRate
  {
    if p.Parsed? && p.data.deviceType == Transformer {
      var eff := OnTransformer(st, p.data, env).1;
      if eff.powerCut {
        var rate := Physics.DetectThermalShock(st.shock, p.data.temperature, p.data.timestamp).0;
        var i :| 0 <= i < |eff.events| && eff.events[i].kind == ThermalShock;
      }
    }
  }

  /** A run of messages. */
  function Run(st: Ingest, ps: seq<Payload>, ins: seq<Inputs>): (r: (Ingest, seq<Effects>))
    requires Valid(st) && |ps| == |ins|
    ensures Valid(r.0) && |r.1| == |ps|
    decreases |ps|
  {
    if ps == [] then (st, [])
    else
      var step := OnMessage(st, ps[0], ins[0]);
      var rest := Run(step.0, ps[1..], ins[1..]);
      (rest.0, [step.1] + rest.1)
  }

  /** The current most recently reported under `id`, or `prior` if no valid
      message carried that id. */
  function LastCurrent(ps: seq<Payload>, id: string, prior: real): real
    decreases |ps|
  {
    if ps == [] then prior
    else
      var p := ps[|ps| - 1];
      if p.Parsed? && p.data.sensorId == id then p.data.current
      else LastCurrent(ps[..|ps| - 1], id, prior)
  }

  /** The current `p` reports for `id`, if it is a valid message from `id`. */
  function Reported(p: Payload, id: string, prior: real): real {
    if p.Parsed? && p.data.sensorId == id then p.data.current else prior
  }

  /** Reading the newest report first is the same as folding the messages
      in arrival order. */
  lemma {:induction false} LastCurrentFirst(ps: seq<Payload>, id: string, prior: real)
    requires ps != []
    ensures LastCurrent(ps, id, prior) == LastCurrent(ps[1..], id, Reported(ps[0], id, prior))
    decreases |ps|
  {
    if |ps| > 1 {
      var init := ps[..|ps| - 1];
      LastCurrentFirst(init, id, prior);
      assert init[1..] == ps[1..][..|ps[1..]| - 1];
    }
  }

  lemma StepLatest(st: Ingest, p: Payload, env: Inputs)
    requires Valid(st)
    ensures OnMessage(st, p, env).0.latest ==
      Latest(Reported(p, TxId, st.latest.tx), Reported(p, HouseId, st.latest.house))
  {
    assert TxId != HouseId;
  }

  /** `latest_readings` always holds the last current each watched sensor
      reported, regardless of device type, and invalid payloads and other
      ids never disturb it. */
  lemma {:induction false} RunRemembersLast(st: Ingest, ps: seq<Payload>, ins: seq<Inputs>)
    requires Valid(st) && |ps| == |ins|
    ensures Run(st, ps, ins).0.latest ==
      Latest(LastCurrent(ps, TxId, st.latest.tx), LastCurrent(ps, HouseId, st.latest.house))
    decreases |ps|
  {
    if ps != [] {
      var next := OnMessage(st, ps[0], ins[0]).0;
      var tx := Reported(ps[0], TxId, st.latest.tx);
      var house := Reported(ps[0], HouseId, st.latest.house);
      StepLatest(st, ps[0], ins[0]);
      assert next.latest == Latest(tx, house);
      RunRemembersLast(next, ps[1..], ins[1..]);
      assert Run(st, ps, ins).0 == Run(next, ps[1..], ins[1..]).0;
      LastCurrentFirst(ps, TxId, st.latest.tx);
      LastCurrentFirst(ps, HouseId, st.latest.house);
    }
  }
}

=== FILE: numeric.dfy ===
/** Decimal rounding on exact reals.

    Python's `round(x, k)` and JavaScript's `x.toFixed(k)` both round a
    binary float to `k` decimal places. The model rounds the exact real
    value half-up, which agrees with both away from exact ties. */
module Numeric {

  function Pow10(k: nat): (p: nat)
    ensures p >= 1
  {
    if k == 0 then 1 else 10 * Pow10(k - 1)
  }

  /** The size of one unit in the last of `places` decimal places, inverted. */
  function Scale(places: nat): (p: real)
    ensures p >= 1.0
  {
    Pow10(places) as real
  }

  /** `x` rounded to the nearest multiple of `1/p`, ties upwards. */
  function RoundAt(x: real, p: real): real
    requires p > 0.0
  {
    ((x * p + 0.5).Floor as real) / p
  }

  /** `x` rounded to `places` decimal places, ties upwards. */
  function Round(x: real, places: nat): real {
    RoundAt(x, Scale(places))
  }

  function Max(a: real, b: real): (m: real)
    ensures m >= a && m >= b
    ensures m == a || m == b
  {
    if a >= b then a else b
  }

  function Min(a: real, b: real): (m: real)
    ensures m <= a && m <= b
    ensures m == a || m == b
  {
    if a <= b then a else b
  }

  lemma RoundAtUnfold(x: real, p: real)
    requires p > 0.0
    ensures RoundAt(x, p) == ((x * p + 0.5).Floor as real) / p
  {
  }

  lemma RoundAtIsClose(x: real, p: real)
    requires p > 0.0
    ensures x - 0.5 / p < RoundAt(x, p) <= x + 0.5 / p
  {
    var f := (x * p + 0.5).Floor as real;
    assert x * p - 0.5 < f <= x * p + 0.5;
    assert RoundAt(x, p) == f / p;
    assert (x * p - 0.5) / p < f / p <= (x * p + 0.5) / p;
  }

  /** The rounded value lies within half a unit in the last place of `x`. */
  lemma RoundIsClose(x: real, places: nat)
    ensures x - 0.5 / Scale(places) < Round(x, places) <= x + 0.5 / Scale(places)
  {
    RoundAtIsClose(x, Scale(places));
  }

  lemma RoundAtMonotone(x: real, y: real, p: real)
    requires p > 0.0
    requires x <= y
    ensures RoundAt(x, p) <= RoundAt(y, p)
  {
    assert (y - x) * p >= 0.0;
    FloorMonotone(x * p + 0.5, y * p + 0.5);
    var fx := (x * p + 0.5).Floor as real;
    var fy := (y * p + 0.5).Floor as real;
    assert fx <= fy;
    assert RoundAt(x, p) == fx / p;
    assert RoundAt(y, p) == fy / p;
  }

  lemma FloorMonotone(a: real, b: real)
    requires a <= b
    ensures a.Floor <= b.Floor
  {
    assert a.Floor as real <= a <= b < b.Floor as real + 1.0;
  }

  /** Rounding is monotone in its argument. */
  lemma RoundMonotone(x: real, y: real, places: nat)
    requires x <= y
    ensures Round(x, places) <= Round(y, places)
  {
    RoundAtMonotone(x, y, Scale(places));
  }

  lemma RoundAtOfInt(n: int, k: nat)
    requires k >= 1
    ensures RoundAt(n as real, k as real) == n as real
  {
    var m := n * k;
    MulAsReal(n, k);
    FloorOfHalfAbove(m);
    RoundAtUnfold(n as real, k as real);
    assert (m as real) / (k as real) == n as real;
  }

  lemma MulAsReal(a: int, b: int)
    ensures (a as real) * (b as real) == (a * b) as real
  {
  }

  lemma FloorOfHalfAbove(m: int)
    ensures (m as real + 0.5).Floor == m
  {
  }

  /** Every integer already has `places` decimals, so rounding leaves it alone. */
  lemma RoundOfInt(n: int, places: nat)
    ensures Round(n as real, places) == n as real
  {
    RoundAtOfInt(n, Pow10(places));
  }

  /** Rounding a non-negative value never yields a negative one. */
  lemma RoundNonNegative(x: real, places: nat)
    requires x >= 0.0
    ensures Round(x, places) >= 0.0
  {
    RoundOfInt(0, places);
    RoundMonotone(0.0, x, places);
  }

  /** Rounding keeps a value inside integer bounds. */
  lemma RoundWithin(x: real, lo: int, hi: int, places: nat)
    requires lo as real <= x <= hi as real
    ensures lo as real <= Round(x, places) <= hi as real
  {
    RoundMonotone(lo as real, x, places);
    RoundMonotone(x, hi as real, places);
    RoundOfInt(lo, places);
    RoundOfInt(hi, places);
  }
}

=== FILE: physics.dfy ===
/** The transformer physics of `app/services/physics.py`: the rate-of-rise
    detector, a two-field state machine, and the demo-mode exaggeration of
    the insulation aging factor.

    The aging factor's exponential is computed by numpy; the model takes
    its raw value as input. Timestamps are seconds. */
module Physics {
  import opened Wrappers
  import opened Numeric

  datatype Sample = Sample(temp: real, time: real)

  /** `last_temp` and `last_time`, both unset before the first call. */
  datatype Shock = Shock(last: Option<Sample>)

  function InitialShock(): Shock {
    Shock(None)
  }

  /** `detect_thermal_shock`: the temperature's rate of rise in degrees per
      minute, rounded to thousandths, and the detector's next state. */
  function DetectThermalShock(st: Shock, temp: real, time: real): (r: (real, Shock))
    // first reading: remembered, no rate yet
    ensures st.last.None? ==> r == (0.0, Shock(Some(Sample(temp, time))))
    // no time has passed: no rate, and the stored reading is kept
    ensures st.last.Some? && time == st.last.value.time ==> r == (0.0, st)
    // otherwise: the slope against the stored reading, which is replaced
    ensures st.last.Some? && time != st.last.value.time ==>
      && r.1 == Shock(Some(Sample(temp, time)))
      && r.0 == Round((temp - st.last.value.temp) / ((time - st.last.value.time) / 60.0), 3)
  {
    match st.last
    case None => (0.0, Shock(Some(Sample(temp, time))))
    case Some(prev) =>
      var minutes := (time - prev.time) / 60.0;
      if minutes == 0.0 then (0.0, st)
      else (Round((temp - prev.temp) / minutes, 3), Shock(Some(Sample(temp, time))))
  }

  /** A rise faster than `k` degrees per minute is reported as one: rounding
      to thousandths never hides a rise of at least `k + 0.0005`. */
  lemma RateAboveThreshold(prev: Sample, temp: real, time: real, k: real)
    requires time > prev.time
    requires (temp - prev.temp) / ((time - prev.time) / 60.0) >= k + 0.0005
    ensures DetectThermalShock(Shock(Some(prev)), temp, time).0 >= k
  {
    var raw := (temp - prev.temp) / ((time - prev.time) / 60.0);
    RoundIsClose(raw, 3);
    assert Scale(3) == 1000.0;
  }

  const DemoScale: real := 100.0

  const AgingAlert: real := 4.0

  /** The tail of `calculate_aging_factor`: in demo mode an overheating
      factor (above 1.0) is exaggerated a hundredfold; then rounded.
      Hence in demo mode the 4.0 aging alert fires exactly when the raw
      factor exceeds 1.0 (every such factor lands at 100 or more, and one of
      at most 1.0 rounds to at most 1.0), and outside demo mode the factor
      is only rounded to two decimals. */
  function ScaleAging(raw: real, demoMode: bool): (r: real)
    ensures demoMode ==> (r > AgingAlert <==> raw > 1.0)
    ensures demoMode && raw > 1.0 ==> r >= DemoScale && r == Round(raw * DemoScale, 2)
    ensures demoMode && raw <= 1.0 ==> r == Round(raw, 2)
    ensures !demoMode ==> r == Round(raw, 2) && raw - 0.005 < r <= raw + 0.005
  {
    if demoMode && raw > 1.0 then
      RoundMonotone(100.0, raw * DemoScale, 2);
      RoundOfInt(100, 2);
      Round(raw * DemoScale, 2)
    else if demoMode then
      RoundMonotone(raw, 1.0, 2);
      RoundOfInt(1, 2);
      Round(raw, 2)
    else
      RoundIsClose(raw, 2);
      assert Scale(2) == 100.0;
      Round(raw, 2)
  }

}

=== FILE: prediction.dfy ===
/** The failure predictor of `backend/app/services/prediction.py`: a
    60-point sliding window of (time, temperature) readings, and the guards
    around a linear extrapolation to the temperature limit.

    The least-squares fit itself is scikit-learn's; the model takes its
    slope and intercept as input. Times are seconds. */
module Prediction {
  import opened Wrappers
  import opened Numeric
  import Window

  const MaxHistory: nat := 60
  const MinPoints: nat := 10
  const HorizonSeconds: real := 3600.0

  /** `history_x` (times) and `history_y` (temperatures), kept as two lists. */
  datatype Predictor = Predictor(xs: seq<real>, ys: seq<real>)

  datatype Fit = Fit(slope: real, intercept: real)

  predicate Valid(p: Predictor) {
    |p.xs| == |p.ys| && |p.xs| <= MaxHistory
  }

  function Initial(): (p: Predictor)
    ensures Valid(p)
  {
    Predictor([], [])
  }

  /** `add_reading`: append to both lists, and drop the oldest point of each
      once the window is over capacity. */
  function AddReading(p: Predictor, temp: real, time: real): (r: Predictor)
    requires Valid(p)
    ensures Valid(r)
    ensures r.xs == Window.Push(p.xs, time, MaxHistory)
    ensures r.ys == Window.Push(p.ys, temp, MaxHistory)
  {
    var xs := p.xs + [time];
    var ys := p.ys + [temp];
    if |xs| > MaxHistory then Predictor(xs[1..], ys[1..]) else Predictor(xs, ys)
  }

  /** Add a run of readings, oldest first. */
  function AddAll(p: Predictor, temps: seq<real>, times: seq<real>): (r: Predictor)
    requires Valid(p) && |temps| == |times|
    ensures Valid(r)
    decreases |temps|
  {
    if temps == [] then p else AddAll(AddReading(p, temps[0], times[0]), temps[1..], times[1..])
  }

  /** The window always holds the newest readings in arrival order, at
      most 60 of them, times and temperatures side by side. */
  lemma {:induction false} AddAllKeepsNewest(p: Predictor, temps: seq<real>, times: seq<real>)
    requires Valid(p) && |temps| == |times|
    ensures AddAll(p, temps, times).xs == Window.PushAll(p.xs, times, MaxHistory)
    ensures AddAll(p, temps, times).ys == Window.PushAll(p.ys, temps, MaxHistory)
    ensures AddAll(p, temps, times).xs == Window.KeepLast(p.xs + times, MaxHistory)
    ensures AddAll(p, temps, times).ys == Window.KeepLast(p.ys + temps, MaxHistory)
    decreases |temps|
  {
    if temps != [] {
      AddAllKeepsNewest(AddReading(p, temps[0], times[0]), temps[1..], times[1..]);
    }
    Window.PushAllKeepsNewest(p.xs, times, MaxHistory);
    Window.PushAllKeepsNewest(p.ys, temps, MaxHistory);
  }

  /** `predict_failure_time`: minutes until the fitted line reaches
      `limitTemp`, or `None` when there are too few points, the temperature
      is not rising, or the crossing is in the past or over an hour away. */
  function PredictFailureTime(p: Predictor, limitTemp: real, fit: Fit): (r: Option<real>)
    requires Valid(p)
    ensures |p.xs| < MinPoints ==> r == None
    ensures fit.slope <= 0.0 ==> r == None
    ensures r.Some? ==> 0.0 <= r.value <= 60.0
    ensures r.Some? ==>
      var secondsLeft := (limitTemp - fit.intercept) / fit.slope - p.xs[|p.xs| - 1];
      && 0.0 <= secondsLeft <= HorizonSeconds
      && r.value == Round(secondsLeft / 60.0, 1)
    ensures |p.xs| >= MinPoints && fit.slope > 0.0 ==>
      var secondsLeft := (limitTemp - fit.intercept) / fit.slope - p.xs[|p.xs| - 1];
      (r.Some? <==> 0.0 <= secondsLeft <= HorizonSeconds)
  {
    if |p.xs| < MinPoints then None
    else if fit.slope <= 0.0 then None
    else
      var current := p.xs[|p.xs| - 1];
      var secondsLeft := (limitTemp - fit.intercept) / fit.slope - current;
      if secondsLeft > HorizonSeconds || secondsLeft < 0.0 then None
      else
        RoundWithin(secondsLeft / 60.0, 0, 60, 1);
        Some(Round(secondsLeft / 60.0, 1))
  }
}

=== FILE: simulation.dfy ===
/** One tick of the synthetic telemetry generator (`src/hooks/useGridSimulation.ts`).

    The generator reads the store's status and countdown, draws a sample
    whose ranges depend on the status, may decrement the countdown or fire
    the 1% chaos trigger, and finally records the sample with `setMetrics`.
    The uniform draws of `Math.random()` and the clock's time label are
    parameters. */
module Simulation {
  import opened Wrappers
  import opened Numeric
  import opened GridStore

  /** The `Math.random()` values a tick may consume, in the order the source
      draws them: the three baseline draws, the two CRITICAL overrides, and
      the chaos draw. A tick only consults the ones its branch draws. */
  datatype Draws = Draws(temp: real, load: real, vib: real, hotTemp: real, hotVib: real, chaos: real)

  predicate Unit(r: real) {
    0.0 <= r < 1.0
  }

  predicate ValidDraws(d: Draws) {
    Unit(d.temp) && Unit(d.load) && Unit(d.vib) && Unit(d.hotTemp) && Unit(d.hotVib) && Unit(d.chaos)
  }

  /** `Math.floor(r * (hi - lo) + lo)`: an integer in `[lo, hi - 1]`. */
  function UniformInt(r: real, lo: int, hi: int): (n: int)
    requires Unit(r) && lo < hi
    ensures lo <= n < hi
  {
    var x := r * (hi - lo) as real + lo as real;
    assert lo as real <= x < hi as real by { ScaleBelowOne(r, (hi - lo) as real); }
    x.Floor
  }

  /** `+(r * (hi - lo) + lo).toFixed(places)`: a value in `[lo, hi]`. */
  function UniformRounded(r: real, lo: int, hi: int, places: nat): (x: real)
    requires Unit(r) && lo < hi
    ensures lo as real <= x <= hi as real
  {
    var y := r * (hi - lo) as real + lo as real;
    assert lo as real <= y <= hi as real by { ScaleBelowOne(r, (hi - lo) as real); }
    RoundWithin(y, lo, hi, places);
    Round(y, places)
  }

  lemma ScaleBelowOne(r: real, w: real)
    requires Unit(r) && w > 0.0
    ensures 0.0 <= r * w < w
  {
  }

  /** One interval callback of the generator. */
  function Tick(s: Store, d: Draws, time: string): (r: Store)
    requires ValidDraws(d)
    // every tick records exactly one sample
    ensures r.history == SetMetrics(s, r.temperature, r.load, r.vibration, time).history
    ensures r.temperature == r.temperature.Floor as real
    // NORMAL or WARNING: the baseline ranges
    ensures s.status !in {Critical, Healing} ==>
      && 40.0 <= r.temperature <= 49.0
      && 10.0 <= r.load <= 15.0
      && 49.0 <= r.vibration <= 51.0
    // CRITICAL: hot temperature and vibration, baseline load
    ensures s.status == Critical ==>
      && 80.0 <= r.temperature <= 89.0
      && 100.0 <= r.vibration <= 150.0
      && 10.0 <= r.load <= 15.0
    // HEALING: the cool-down floor always wins over a baseline temperature
    ensures s.status == Healing ==> r.temperature == 45.0 && r.load == 5.0 && r.vibration == 50.0
    // the countdown only moves in CRITICAL, and then by exactly one towards zero
    ensures s.status == Critical ==>
      r.countdown == (if s.countdown.Some? && s.countdown.value > 0 then Some(s.countdown.value - 1) else s.countdown)
    ensures s.status == Healing ==> r.countdown == s.countdown
    // the chaos trigger, and the only status change a tick can make
    ensures s.status !in {Critical, Healing} && d.chaos > 0.99 ==> r.status == Critical && r.countdown == Some(9)
    ensures !(s.status !in {Critical, Healing} && d.chaos > 0.99) ==> r.status == s.status
    ensures s.status !in {Critical, Healing} && d.chaos <= 0.99 ==> r.countdown == s.countdown
  {
    var baseTemp := UniformInt(d.temp, 40, 50);
    var baseLoad := UniformRounded(d.load, 10, 15, 1);
    var baseVib := UniformRounded(d.vib, 49, 51, 2);
    if s.status == Critical then
      var hotTemp := UniformInt(d.hotTemp, 80, 90);
      var hotVib := UniformRounded(d.hotVib, 100, 150, 2);
      var s1 := if s.countdown.Some? && s.countdown.value > 0
                then SetCountdown(s, Some(s.countdown.value - 1)) else s;
      SetMetrics(s1, hotTemp as real, baseLoad, hotVib, time)
    else if s.status == Healing then
      var coolTemp := if 45 >= baseTemp - 5 then 45 else baseTemp - 5;
      SetMetrics(s, coolTemp as real, 5.0, 50.0, time)
    else if d.chaos > 0.99 then
      var s1 := SetCountdown(SetStatus(s, Critical), Some(9));
      SetMetrics(s1, baseTemp as real, baseLoad, baseVib, time)
    else
      SetMetrics(s, baseTemp as real, baseLoad, baseVib, time)
  }

  /** Run `Tick` once per element of `ds`. */
  function Ticks(s: Store, ds: seq<Draws>, time: string): Store
    requires forall i :: 0 <= i < |ds| ==> ValidDraws(ds[i])
    decreases |ds|
  {
    if ds == [] then s else Ticks(Tick(s, ds[0], time), ds[1..], time)
  }

  /** The generator never leaves CRITICAL or HEALING by itself. */
  lemma {:induction false} TicksKeepAlarmStatus(s: Store, ds: seq<Draws>, time: string)
    requires forall i :: 0 <= i < |ds| ==> ValidDraws(ds[i])
    requires s.status in {Critical, Healing}
    ensures Ticks(s, ds, time).status == s.status
    decreases |ds|
  {
    if ds != [] {
      TicksKeepAlarmStatus(Tick(s, ds[0], time), ds[1..], time);
    }
  }

  /** In CRITICAL, `n` ticks bring a countdown of `c` down to `max(c - n, 0)`
      and never leave CRITICAL: reaching zero triggers nothing. */
  lemma {:induction false} CriticalCountdown(s: Store, ds: seq<Draws>, time: string, c: int)
    requires forall i :: 0 <= i < |ds| ==> ValidDraws(ds[i])
    requires s.status == Critical && s.countdown == Some(c) && c >= 0
    ensures Ticks(s, ds, time).status == Critical
    ensures Ticks(s, ds, time).countdown == Some(if c >= |ds| then c - |ds| else 0)
    decreases |ds|
  {
    if ds != [] {
      CriticalCountdown(Tick(s, ds[0], time), ds[1..], time, if c > 0 then c - 1 else 0);
    }
  }
}

=== FILE: sms_alerts.dfy ===
/** The technician SMS of `backend/alerts.py`: a configuration gate and a
    300-second cooldown in front of the SMS gateway.

    The environment variables, the clock (`time.time()`, seconds) and the
    gateway's outcome are parameters; the module-level `last_sent` is the
    limiter's state. */
module SmsAlerts {
  import opened Wrappers
  import Text

  const CooldownSeconds: real := 300.0

  /** `os.getenv` values; `None` is an unset variable. */
  datatype Env = Env(apiKey: Option<string>, phone: Option<string>, smsEnabled: Option<string>)

  datatype Config = Config(apiKey: Option<string>, phone: Option<string>, enabled: bool)

  /** `SMS_ENABLED` defaults to "true" and is compared case-insensitively. */
  function LoadConfig(env: Env): (c: Config)
    ensures env.smsEnabled.None? ==> c.enabled
    ensures c.enabled <==> Text.Lower(env.smsEnabled.GetOr("true")) == "true"
  {
    Config(env.apiKey, env.phone, Text.Lower(env.smsEnabled.GetOr("true")) == "true")
  }

  /** A Python string is truthy when set and non-empty. */
  predicate Present(v: Option<string>) {
    v.Some? && v.value != ""
  }

  predicate Configured(c: Config) {
    c.enabled && Present(c.apiKey) && Present(c.phone)
  }

  /** What the gateway call does: returns a response, or raises. */
  datatype Gateway = Delivered(response: string) | Raised(error: string)

  datatype Reason = DisabledOrMissingConfig | Cooldown | GatewayError(message: string)

  datatype SendResult = Sent(response: string) | NotSent(reason: Reason)

  /** `send_sms_alert` at time `now`, with `lastSent` the time of the last
      delivered message (initially 0): the result and the new `last_sent`. */
  function SendSmsAlert(c: Config, lastSent: real, now: real, gw: Gateway): (r: (SendResult, real))
    ensures !Configured(c) ==> r == (NotSent(DisabledOrMissingConfig), lastSent)
    ensures Configured(c) && now - lastSent < CooldownSeconds ==> r == (NotSent(Cooldown), lastSent)
    ensures Configured(c) && now - lastSent >= CooldownSeconds ==>
      match gw
      case Delivered(resp) => r == (Sent(resp), now)
      case Raised(e) => r == (NotSent(GatewayError(e)), lastSent)
    ensures r.1 != lastSent ==> r.0.Sent? && r.1 == now
  {
    if !Configured(c) then (NotSent(DisabledOrMissingConfig), lastSent)
    else if now - lastSent < CooldownSeconds then (NotSent(Cooldown), lastSent)
    else
      match gw
      case Delivered(resp) => (Sent(resp), now)
      case Raised(e) => (NotSent(GatewayError(e)), lastSent)
  }

  /** Apply `SendSmsAlert` to a run of (time, gateway outcome) attempts and
      collect the times at which a message went out. */
  function SentTimes(c: Config, lastSent: real, attempts: seq<(real, Gateway)>): seq<real>
    decreases |attempts|
  {
    if attempts == [] then []
    else
      var now := attempts[0].0;
      var step := SendSmsAlert(c, lastSent, now, attempts[0].1);
      (if step.0.Sent? then [now] else []) + SentTimes(c, step.1, attempts[1..])
  }

  /** The limiter's guarantee: along any run of attempts, consecutive
      delivered messages are at least 300 seconds apart, and the first is
      at least 300 seconds after the last earlier delivery. */
  lemma {:induction false} DeliveriesSpaced(c: Config, lastSent: real, attempts: seq<(real, Gateway)>)
    ensures var ts := SentTimes(c, lastSent, attempts);
            && (|ts| > 0 ==> ts[0] - lastSent >= CooldownSeconds)
            && forall i :: 0 <= i < |ts| - 1 ==> ts[i + 1] - ts[i] >= CooldownSeconds
    decreases |attempts|
  {
    if attempts != [] {
      var now := attempts[0].0;
      var step := SendSmsAlert(c, lastSent, now, attempts[0].1);
      DeliveriesSpaced(c, step.1, attempts[1..]);
      var rest := SentTimes(c, step.1, attempts[1..]);
      if step.0.Sent? {
        assert SentTimes(c, lastSent, attempts) == [now] + rest;
      } else {
        assert SentTimes(c, lastSent, attempts) == rest;
      }
    }
  }
}

=== FILE: sms_store.dfy ===
/** The second copy of the shared store (`frontend/src/store/useGridStore.ts`):
    the same grid fields and setters, plus the last SMS delivery report and
    the operator's SMS switch. */
module SmsStore {
  import opened Wrappers
  import GridStore

  /** The backend's `{ sent, reason? }` delivery report. */
  datatype SmsReport = SmsReport(sent: bool, reason: Option<string>)

  datatype Store = Store(grid: GridStore.Store, smsStatus: Option<SmsReport>, smsEnabled: bool)

  function Initial(): (s: Store)
    ensures s.grid == GridStore.Initial()
    ensures s.smsStatus == None && s.smsEnabled
  {
    Store(GridStore.Initial(), None, true)
  }

  function SetMetrics(s: Store, temp: real, load: real, vib: real, time: string): (r: Store)
    ensures r.grid.temperature == temp && r.grid.load == load && r.grid.vibration == vib
    ensures r.grid.status == s.grid.status && r.grid.countdown == s.grid.countdown
    ensures GridStore.Valid(r.grid)
    ensures |r.grid.history| >= 1 && r.grid.history[|r.grid.history| - 1] == GridStore.HistoryPoint(time, temp, load)
    ensures GridStore.Valid(s.grid) && |s.grid.history| < GridStore.HistoryCap
            ==> |r.grid.history| == |s.grid.history| + 1
    ensures r.smsStatus == s.smsStatus && r.smsEnabled == s.smsEnabled
  {
    s.(grid := GridStore.SetMetrics(s.grid, temp, load, vib, time))
  }

  function SetStatus(s: Store, status: GridStore.Status): (r: Store)
    ensures r.grid.status == status
    ensures r.(grid := r.grid.(status := s.grid.status)) == s
  {
    s.(grid := GridStore.SetStatus(s.grid, status))
  }

  function SetCountdown(s: Store, countdown: Option<int>): (r: Store)
    ensures r.grid.countdown == countdown
    ensures r.(grid := r.grid.(countdown := s.grid.countdown)) == s
  {
    s.(grid := GridStore.SetCountdown(s.grid, countdown))
  }

  /** `setSmsStatus`: stores the delivery report and nothing else. */
  function SetSmsStatus(s: Store, report: Option<SmsReport>): (r: Store)
    ensures r.smsStatus == report
    ensures r.grid == s.grid && r.smsEnabled == s.smsEnabled
  {
    s.(smsStatus := report)
  }

  /** `setSmsEnabled`: stores the switch and nothing else. */
  function SetSmsEnabled(s: Store, enabled: bool): (r: Store)
    ensures r.smsEnabled == enabled
    ensures r.grid == s.grid && r.smsStatus == s.smsStatus
  {
    s.(smsEnabled := enabled)
  }
}

=== FILE: store.dfy ===
/** The shared dashboard store (`src/store/useGridStore.ts`): the latest
    sample, the asset status, the failure countdown and a 20-point history.

    Each setter is a pure function from the store before the call to the
    store after it; the time label of a history point, which the source
    reads from the wall clock, is a parameter. */
module GridStore {
  import opened Wrappers
  import Window

  /** WARNING is part of the type, but no writer ever produces it. */
  datatype Status = Normal | Warning | Critical | Healing

  datatype HistoryPoint = HistoryPoint(time: string, temp: real, load: real)

  datatype Store = Store(
    temperature: real,
    load: real,
    vibration: real,
    status: Status,
    countdown: Option<int>,
    history: seq<HistoryPoint>)

  const HistoryCap: nat := 20

  /** The bound every reachable store keeps. */
  predicate Valid(s: Store) {
    |s.history| <= HistoryCap
  }

  function Initial(): (s: Store)
    ensures Valid(s)
  {
    Store(45.0, 12.5, 50.0, Normal, None, [])
  }

  /** `setMetrics`: record a sample and append it to the history. */
  function SetMetrics(s: Store, temp: real, load: real, vib: real, time: string): (r: Store)
    ensures r.temperature == temp && r.load == load && r.vibration == vib
    ensures r.status == s.status && r.countdown == s.countdown
    ensures Valid(r)
    ensures |r.history| >= 1 && r.history[|r.history| - 1] == HistoryPoint(time, temp, load)
    ensures |r.history| == if |s.history| < HistoryCap then |s.history| + 1 else HistoryCap
    ensures Valid(s) && |s.history| < HistoryCap ==> r.history[..|s.history|] == s.history
    ensures Valid(s) && |s.history| == HistoryCap ==> r.history[..HistoryCap - 1] == s.history[1..]
  {
    var point := HistoryPoint(time, temp, load);
    s.(temperature := temp, load := load, vibration := vib,
       history := Window.Push(s.history, point, HistoryCap))
  }

  /** `setStatus`: replaces the status and nothing else. */
  function SetStatus(s: Store, status: Status): (r: Store)
    ensures r.status == status
    ensures r.(status := s.status) == s
  {
    s.(status := status)
  }

  /** `setCountdown`: replaces the countdown and nothing else. */
  function SetCountdown(s: Store, countdown: Option<int>): (r: Store)
    ensures r.countdown == countdown
    ensures r.(countdown := s.countdown) == s
  {
    s.(countdown := countdown)
  }

  /** One write into the store, as issued by any of its writers. */
  datatype Write =
    | MetricsWrite(temp: real, load: real, vib: real, time: string)
    | StatusWrite(status: Status)
    | CountdownWrite(countdown: Option<int>)

  function Apply(s: Store, w: Write): Store {
    match w
    case MetricsWrite(t, l, v, time) => SetMetrics(s, t, l, v, time)
    case StatusWrite(st) => SetStatus(s, st)
    case CountdownWrite(c) => SetCountdown(s, c)
  }

  function Run(s: Store, ws: seq<Write>): Store
    decreases |ws|
  {
    if ws == [] then s else Run(Apply(s, ws[0]), ws[1..])
  }

  /** The history point a write appends: one for a metric write, none otherwise. */
  function PointOf(w: Write): seq<HistoryPoint> {
    if w.MetricsWrite? then [HistoryPoint(w.time, w.temp, w.load)] else []
  }

  /** The history points the metric writes of `ws` append, in order. */
  function PointsOf(ws: seq<Write>): seq<HistoryPoint>
    decreases |ws|
  {
    if ws == [] then [] else PointOf(ws[0]) + PointsOf(ws[1..])
  }

  lemma ApplyHistory(s: Store, w: Write)
    requires Valid(s)
    ensures Apply(s, w).history == Window.KeepLast(s.history + PointOf(w), HistoryCap)
    ensures Valid(Apply(s, w))
  {
    if !w.MetricsWrite? {
      assert s.history + PointOf(w) == s.history;
    }
  }

  lemma AbsorbConcat(h: seq<HistoryPoint>, here: seq<HistoryPoint>, rest: seq<HistoryPoint>)
    ensures Window.KeepLast(Window.KeepLast(h + here, HistoryCap) + rest, HistoryCap)
         == Window.KeepLast(h + (here + rest), HistoryCap)
  {
    Window.KeepLastAbsorbs(h + here, rest, HistoryCap);
    assert (h + here) + rest == h + (here + rest);
  }

  /** Whatever mix of writes reaches the store, its history is the newest
      20 points of the old history followed by every appended point. */
  lemma {:induction false} RunHistory(s: Store, ws: seq<Write>)
    requires Valid(s)
    ensures Valid(Run(s, ws))
    ensures Run(s, ws).history == Window.KeepLast(s.history + PointsOf(ws), HistoryCap)
    decreases |ws|
  {
    if ws == [] {
      assert s.history + [] == s.history;
    } else {
      var next := Apply(s, ws[0]);
      var here := PointOf(ws[0]);
      var rest := PointsOf(ws[1..]);
      ApplyHistory(s, ws[0]);
      RunHistory(next, ws[1..]);
      assert Run(s, ws) == Run(next, ws[1..]);
      assert PointsOf(ws) == here + rest;
      AbsorbConcat(s.history, here, rest);
    }
  }

  /** From the initial store: at most 20 points, exactly the last
      `min(n, 20)` appended, in arrival order. */
  lemma HistoryFromInitial(ws: seq<Write>)
    ensures |Run(Initial(), ws).history| <= HistoryCap
    ensures Run(Initial(), ws).history == Window.KeepLast(PointsOf(ws), HistoryCap)
  {
    RunHistory(Initial(), ws);
    assert [] + PointsOf(ws) == PointsOf(ws);
  }

  /** Only `setStatus` changes the status and only `setCountdown` changes
      the countdown: a run without them leaves both as they were. */
  lemma {:induction false} MetricsOnlyKeepStatus(s: Store, ws: seq<Write>)
    requires forall i :: 0 <= i < |ws| ==> ws[i].MetricsWrite?
    ensures Run(s, ws).status == s.status
    ensures Run(s, ws).countdown == s.countdown
    decreases |ws|
  {
    if ws != [] {
      MetricsOnlyKeepStatus(Apply(s, ws[0]), ws[1..]);
    }
  }
}

=== FILE: text.dfy ===
/** String helpers shared by the dashboard's text handling: ASCII
    lower-casing, substring search, JavaScript `trim`, and decimal
    rendering of integers. */
module Text {

  /** Lower-cases one character; only ASCII letters have a lower case here. */
  function LowerChar(c: char): (d: char)
    ensures 'A' <= c <= 'Z' ==> d as int == c as int + 32
    ensures !('A' <= c <= 'Z') ==> d == c
  {
    if 'A' <= c <= 'Z' then (c as int + 32) as char else c
  }

  function Lower(s: string): (r: string)
    ensures |r| == |s|
    ensures forall i :: 0 <= i < |s| ==> r[i] == LowerChar(s[i])
  {
    if s == [] then [] else [LowerChar(s[0])] + Lower(s[1..])
  }

  /** Lower-casing twice is lower-casing once. */
  lemma LowerIdempotent(s: string)
    ensures Lower(Lower(s)) == Lower(s)
  {
  }

  /** Whether `sub` occurs in `s` at position `i`. */
  ghost predicate OccursAt(s: string, sub: string, i: int) {
    0 <= i && i + |sub| <= |s| && s[i..i + |sub|] == sub
  }

  /** JavaScript's `s.includes(sub)`. */
  predicate Contains(s: string, sub: string)
    decreases |s|
  {
    if |sub| > |s| then false
    else s[..|sub|] == sub || Contains(s[1..], sub)
  }

  /** `Contains` finds exactly the occurrences of `sub`. */
  lemma {:induction false} ContainsIff(s: string, sub: string)
    ensures Contains(s, sub) <==> exists i :: OccursAt(s, sub, i)
    decreases |s|
  {
    if |sub| > |s| {
      forall i | OccursAt(s, sub, i) ensures false { }
    } else if s[..|sub|] == sub {
      assert OccursAt(s, sub, 0);
    } else {
      ContainsIff(s[1..], sub);
      if Contains(s[1..], sub) {
        var i :| OccursAt(s[1..], sub, i);
        assert s[i + 1..i + 1 + |sub|] == s[1..][i..i + |sub|];
        assert OccursAt(s, sub, i + 1);
      } else {
        forall i | OccursAt(s, sub, i) ensures false {
          if i > 0 {
            assert s[1..][i - 1..i - 1 + |sub|] == s[i..i + |sub|];
            assert OccursAt(s[1..], sub, i - 1);
          }
        }
      }
    }
  }

  /** Every string contains itself preceded and followed by anything. */
  lemma ContainsInfix(a: string, sub: string, b: string)
    ensures Contains(a + sub + b, sub)
  {
    var s := a + sub + b;
    assert s[|a|..|a| + |sub|] == sub;
    assert OccursAt(s, sub, |a|);
    ContainsIff(s, sub);
  }

  /** The characters ECMAScript's `String.prototype.trim` removes: the
      WhiteSpace and LineTerminator code points. */
  predicate IsSpace(c: char) {
    || c == '\t' || c == '\n' || c == '\U{B}' || c == '\U{C}' || c == '\r'
    || c == ' ' || c == '\U{A0}' || c == '\U{1680}'
    || ('\U{2000}' <= c <= '\U{200A}')
    || c == '\U{2028}' || c == '\U{2029}' || c == '\U{202F}' || c == '\U{205F}'
    || c == '\U{3000}' || c == '\U{FEFF}'
  }

  function TrimStart(s: string): (r: string)
    ensures |r| <= |s| && r == s[|s| - |r|..]
    ensures r != [] ==> !IsSpace(r[0])
  {
    if s != [] && IsSpace(s[0]) then TrimStart(s[1..]) else s
  }

  function TrimEnd(s: string): (r: string)
    ensures |r| <= |s| && r == s[..|r|]
    ensures r != [] ==> !IsSpace(r[|r| - 1])
  {
    if s != [] && IsSpace(s[|s| - 1]) then TrimEnd(s[..|s| - 1]) else s
  }

  /** JavaScript's `s.trim()`. */
  function Trim(s: string): string {
    TrimEnd(TrimStart(s))
  }

  ghost predicate AllSpace(s: string) {
    forall i :: 0 <= i < |s| ==> IsSpace(s[i])
  }

  lemma {:induction false} TrimStartEmpty(s: string)
    ensures TrimStart(s) == [] <==> AllSpace(s)
    decreases |s|
  {
    if TrimStart(s) == [] && s != [] {
      assert IsSpace(s[0]);
      assert TrimStart(s[1..]) == [];
      TrimStartEmpty(s[1..]);
      forall i | 1 <= i < |s| ensures IsSpace(s[i]) {
        assert s[i] == s[1..][i - 1];
      }
    }
  }

  lemma {:induction false} TrimEndKeepsNonEmpty(s: string)
    requires s != [] && !IsSpace(s[0])
    ensures TrimEnd(s) != []
    decreases |s|
  {
    if IsSpace(s[|s| - 1]) {
      assert |s| > 1;
      TrimEndKeepsNonEmpty(s[..|s| - 1]);
    }
  }

  /** A string trims to nothing exactly when every character is whitespace. */
  lemma TrimEmptyIff(s: string)
    ensures Trim(s) == [] <==> AllSpace(s)
  {
    TrimStartEmpty(s);
    var t := TrimStart(s);
    if t != [] {
      assert !IsSpace(t[0]);
      TrimEndKeepsNonEmpty(t);
    }
  }

  function DigitChar(d: nat): (c: char)
    requires d < 10
    ensures '0' <= c <= '9'
  {
    (48 + d) as char
  }

  /** The decimal digits of `n`, most significant first, without leading zeros. */
  function NatToString(n: nat): (r: string)
    ensures |r| >= 1
    ensures forall i :: 0 <= i < |r| ==> '0' <= r[i] <= '9'
    decreases n
  {
    if n < 10 then [DigitChar(n)] else NatToString(n / 10) + [DigitChar(n % 10)]
  }

  /** JavaScript's rendering of an integer-valued number. */
  function IntToString(n: int): string {
    if n < 0 then "-" + NatToString(-n) else NatToString(n)
  }

  /** The value of a string of decimal digits. */
  function DigitsValue(s: string): nat
    requires forall i :: 0 <= i < |s| ==> '0' <= s[i] <= '9'
  {
    if s == [] then 0 else 10 * DigitsValue(s[..|s| - 1]) + (s[|s| - 1] as int - 48)
  }

  /** Reading the rendered digits back yields the number rendered. */
  lemma {:induction false} NatToStringRoundTrip(n: nat)
    ensures DigitsValue(NatToString(n)) == n
    decreases n
  {
    if n >= 10 {
      NatToStringRoundTrip(n / 10);
      var r := NatToString(n);
      assert r[..|r| - 1] == NatToString(n / 10);
    }
  }

  /** Distinct numbers render differently. */
  lemma NatToStringInjective(m: nat, n: nat)
    requires NatToString(m) == NatToString(n)
    ensures m == n
  {
    NatToStringRoundTrip(m);
    NatToStringRoundTrip(n);
  }

  /** A leading zero does not change the value of a digit string. */
  lemma {:induction false} LeadingZero(s: string)
    requires forall i :: 0 <= i < |s| ==> '0' <= s[i] <= '9'
    ensures DigitsValue("0" + s) == DigitsValue(s)
    decreases |s|
  {
    if s != [] {
      var t := "0" + s;
      assert t[..|t| - 1] == "0" + s[..|s| - 1];
      LeadingZero(s[..|s| - 1]);
    }
  }

  /** Numbers below 100 have at most two digits. */
  lemma ShortNumbers(n: nat)
    ensures n < 10 ==> |NatToString(n)| == 1
    ensures 10 <= n < 100 ==> |NatToString(n)| == 2
  {
  }
}

=== FILE: theft_popup.dfy ===
/** The theft-location popup of
    `Grid_Sentinel-frontend/src/components/overlays/TheftLocationPopup.tsx`:
    a step machine driven by the store's status and by two buttons.

    hidden -> scanning (status becomes CRITICAL) -> found (3000 ms later)
    -> isolating (Isolate pressed) -> done, status HEALING (2500 ms later)
    -> hidden (2000 ms later); Police jumps to hidden with status HEALING.

    Timers are due times in milliseconds. Only the scanning timer belongs
    to the status effect and is cancelled when the status changes; the two
    timers of the isolate handler are never cancelled. */
module TheftPopup {
  import opened Wrappers
  import opened GridStore

  datatype Step = Hidden | Scanning | Found | Isolating | Done

  const ScanMs: int := 3000
  const IsolateMs: int := 2500
  const CloseMs: int := 2000

  datatype Popup = Popup(step: Step, scanDue: Option<int>, isolateDue: Option<int>, closeDue: Option<int>)

  /** The dashboard store together with the popup's local state. */
  datatype System = System(store: Store, popup: Popup)

  function InitialPopup(): Popup {
    Popup(Hidden, None, None, None)
  }

  /** The status effect, run when the status changed from `before` to `after`:
      the previous run's cleanup cancels the scanning timer, then CRITICAL
      starts a scan and NORMAL closes a visible popup. */
  function OnStatus(p: Popup, before: Status, after: Status, now: int): (r: Popup)
    ensures before == after ==> r == p
    ensures before != after ==> r.isolateDue == p.isolateDue && r.closeDue == p.closeDue
    ensures before != after && after == Critical ==> r.step == Scanning && r.scanDue == Some(now + ScanMs)
    ensures before != after && after == Normal ==> r.step == Hidden && r.scanDue == None
    ensures before != after && after !in {Critical, Normal} ==> r == p.(scanDue := None)
  {
    if before == after then p
    else
      var cancelled := p.(scanDue := None);
      if after == Critical then cancelled.(step := Scanning, scanDue := Some(now + ScanMs))
      else if after == Normal && p.step != Hidden then cancelled.(step := Hidden)
      else cancelled
  }

  /** Any `setStatus` call, from this component or elsewhere: the store
      takes the new status, and the popup reacts only to a change. */
  function WriteStatus(sys: System, status: Status, now: int): (r: System)
    ensures r.store.status == status && r.store.(status := sys.store.status) == sys.store
    ensures sys.store.status == status ==> r.popup == sys.popup
    ensures sys.store.status != status && status == Critical ==>
      r.popup.step == Scanning && r.popup.scanDue == Some(now + ScanMs)
    ensures sys.store.status != status && status == Normal ==>
      r.popup.step == Hidden && r.popup.scanDue == None
    ensures sys.store.status != status && status !in {Critical, Normal} ==>
      r.popup == sys.popup.(scanDue := None)
    // the isolate handler's timers run on whatever the status does
    ensures r.popup.isolateDue == sys.popup.isolateDue && r.popup.closeDue == sys.popup.closeDue
  {
    System(SetStatus(sys.store, status), OnStatus(sys.popup, sys.store.status, status, now))
  }

  /** The scanning timer fires when due: the target is found. */
  function FireScan(sys: System, now: int): (r: System)
    ensures sys.popup.scanDue.Some? && now >= sys.popup.scanDue.value ==>
      r == sys.(popup := sys.popup.(step := Found, scanDue := None))
    ensures !(sys.popup.scanDue.Some? && now >= sys.popup.scanDue.value) ==> r == sys
  {
    var p := sys.popup;
    if p.scanDue.Some? && now >= p.scanDue.value then sys.(popup := p.(step := Found, scanDue := None))
    else sys
  }

  /** `handleIsolate`, first half: start isolating. */
  function Isolate(sys: System, now: int): (r: System)
    ensures r.store == sys.store
    ensures r.popup.step == Isolating && r.popup.isolateDue == Some(now + IsolateMs)
  {
    sys.(popup := sys.popup.(step := Isolating, isolateDue := Some(now + IsolateMs)))
  }

  /** `handleIsolate`, after its 2500 ms wait: done, status HEALING, and the
      closing timer armed. */
  function FireIsolate(sys: System, now: int): (r: System)
    ensures sys.popup.isolateDue.Some? && now >= sys.popup.isolateDue.value ==>
      && r.store.status == Healing
      && r.store == SetStatus(sys.store, Healing)
      && r.popup.isolateDue == None
      && r.popup.closeDue == Some(now + CloseMs)
      && r.popup.step == Done
    ensures !(sys.popup.isolateDue.Some? && now >= sys.popup.isolateDue.value) ==> r == sys
  {
    var p := sys.popup;
    if p.isolateDue.Some? && now >= p.isolateDue.value then
      var done := sys.(popup := p.(step := Done, isolateDue := None));
      var healed := WriteStatus(done, Healing, now);
      healed.(popup := healed.popup.(closeDue := Some(now + CloseMs)))
    else sys
  }

  /** The closing timer fires: the popup disappears. */
  function FireClose(sys: System, now: int): (r: System)
    ensures sys.popup.closeDue.Some? && now >= sys.popup.closeDue.value ==>
      r == sys.(popup := sys.popup.(step := Hidden, closeDue := None))
    ensures !(sys.popup.closeDue.Some? && now >= sys.popup.closeDue.value) ==> r == sys
  {
    var p := sys.popup;
    if p.closeDue.Some? && now >= p.closeDue.value then sys.(popup := p.(step := Hidden, closeDue := None))
    else sys
  }

  /** `handlePolice`: status HEALING and the popup closes at once. */
  function Police(sys: System, now: int): (r: System)
    ensures r.store == SetStatus(sys.store, Healing)
    ensures r.popup.step == Hidden
  {
    var healed := WriteStatus(sys, Healing, now);
    healed.(popup := healed.popup.(step := Hidden))
  }

  /** The component renders nothing exactly when hidden. */
  predicate Rendered(p: Popup) {
    p.step != Hidden
  }

  /** The Isolate and Police buttons exist only once the target is found. */
  predicate ButtonsShown(p: Popup) {
    p.step == Found
  }

  /** CRITICAL starts a scan that finds the target 3000 ms later, provided
      the status does not change in between. */
  lemma ScanFindsTarget(sys: System, t: int, later: int)
    requires sys.store.status != Critical
    ensures var c := WriteStatus(sys, Critical, t);
            && c.popup.step == Scanning
            && (later < t + ScanMs ==> FireScan(c, later).popup.step == Scanning)
            && (later >= t + ScanMs ==> FireScan(c, later).popup.step == Found)
  {
  }

  /** A status change during the scan cancels it: the target is never found. */
  lemma ChangeCancelsScan(sys: System, t: int, status: Status, t2: int, later: int)
    requires sys.store.status != Critical && status != Critical
    ensures var c := WriteStatus(WriteStatus(sys, Critical, t), status, t2);
            FireScan(c, later) == c
  {
  }

  /** The whole isolate sequence from the found step, with no other writer:
      isolating, then done with HEALING after 2500 ms, then hidden 2000 ms
      after that. */
  lemma IsolateSequence(sys: System, t: int)
    requires sys.popup.step == Found && sys.popup.closeDue == None
    ensures var a := Isolate(sys, t);
            var b := FireIsolate(a, t + IsolateMs);
            var c := FireClose(b, t + IsolateMs + CloseMs);
            && a.popup.step == Isolating && a.store == sys.store
            && FireIsolate(a, t + IsolateMs - 1) == a
            && b.store.status == Healing
            && b.popup.step == Done
            && FireClose(b, t + IsolateMs + CloseMs - 1) == b
            && c.popup.step == Hidden && c.store.status == Healing
  {
  }

  /** The isolate timer is not tied to the status: if the grid returns to
      NORMAL while isolating, the popup closes, yet the timer still fires
      later, reopens it in the done step and forces HEALING. */
  lemma IsolateOutlivesNormal(sys: System, t: int)
    requires sys.popup.step == Found && sys.store.status == Critical
    ensures var a := WriteStatus(Isolate(sys, t), Normal, t + 1);
            var b := FireIsolate(a, t + IsolateMs);
            && a.popup.step == Hidden && !Rendered(a.popup)
            && b.popup.step == Done && Rendered(b.popup) && b.store.status == Healing
  {
  }
}

=== FILE: window.dfy ===
/** Bounded sliding windows: append at the end, keep only the newest
    entries. Shared by the dashboard's 20-point history and the failure
    predictor's 60-point training window. */
module Window {

  /** The newest `cap` entries of `s`, in arrival order: JavaScript's
      `s.slice(-cap)` for `cap > 0`. */
  function KeepLast<T>(s: seq<T>, cap: nat): (r: seq<T>)
    ensures |r| <= cap
  {
    if |s| <= cap then s else s[|s| - cap..]
  }

  /** Append one entry, then keep the newest `cap`. */
  function Push<T>(buf: seq<T>, x: T, cap: nat): seq<T> {
    KeepLast(buf + [x], cap)
  }

  /** Push every entry of `xs`, oldest first. */
  function PushAll<T>(buf: seq<T>, xs: seq<T>, cap: nat): seq<T>
    decreases |xs|
  {
    if xs == [] then buf else PushAll(Push(buf, xs[0], cap), xs[1..], cap)
  }

  /** The window is the newest `min(|s|, cap)` entries of `s`. */
  lemma KeepLastShape<T>(s: seq<T>, cap: nat)
    ensures |KeepLast(s, cap)| == if |s| <= cap then |s| else cap
    ensures KeepLast(s, cap) == s[|s| - |KeepLast(s, cap)|..]
  {
  }

  /** Trimming before appending more loses nothing that trimming after would keep. */
  lemma KeepLastAbsorbs<T>(a: seq<T>, b: seq<T>, cap: nat)
    ensures KeepLast(KeepLast(a, cap) + b, cap) == KeepLast(a + b, cap)
  {
    if |a| > cap {
      var k := KeepLast(a, cap);
      assert k + b == (a + b)[|a| - cap..];
    }
  }

  /** After any run of pushes onto a window within its capacity, the
      window is the newest `cap` entries of everything seen, in arrival order. */
  lemma {:induction false} PushAllKeepsNewest<T>(buf: seq<T>, xs: seq<T>, cap: nat)
    requires |buf| <= cap
    ensures PushAll(buf, xs, cap) == KeepLast(buf + xs, cap)
    decreases |xs|
  {
    if xs == [] {
      assert buf + xs == buf;
    } else {
      var next := Push(buf, xs[0], cap);
      PushAllKeepsNewest(next, xs[1..], cap);
      KeepLastAbsorbs(buf + [xs[0]], xs[1..], cap);
      assert (buf + [xs[0]]) + xs[1..] == buf + xs;
    }
  }

  /** Starting from an empty window: at most `cap` entries, exactly the
      last `min(|xs|, cap)` pushed, in order. */
  lemma PushAllFromEmpty<T>(xs: seq<T>, cap: nat)
    ensures PushAll([], xs, cap) == KeepLast(xs, cap)
    ensures |PushAll([], xs, cap)| <= cap
  {
    PushAllKeepsNewest([], xs, cap);
    assert [] + xs == xs;
  }
}

=== FILE: wrappers.dfy ===
/** Optional values: the model's rendering of JavaScript `null`/`undefined`
    and Python `None`. */
module Wrappers {

  datatype Option<+T> = None | Some(value: T) {

    /** The wrapped value, or `default` when there is none. */
    function GetOr(default: T): T {
      match this
      case Some(v) => v
      case None => default
    }
  }
}
